=== FILE: README.md ===
# storeplus-rating, modelled in Dafny

A model of the StorePulse store-rating application: an Express/Sequelize
backend with three tables (`users`, `stores`, `ratings`) and a React front
end. Three kinds of users take part:
- administrators manage users and stores;
- normal users rate stores, one rating per store;
- store owners read the ratings of stores.

The backend handlers are pure functions here. Each one takes the three
tables, as sequences, and returns the reply it sends (status and body)
together with the tables it leaves (`Models.Step`). The client pages'
decision logic is modelled as pure functions over their React state.

Modules, one per part of the program:

| file | module | what it models |
|---|---|---|
| common.dfy | `Common` | replies and status codes; request fields (absent, `null`, or a string); JavaScript's `filter`, `includes` and `toLowerCase`; `ORDER BY ... DESC` |
| models.dfy | `Models` | the three Sequelize models, lookups, auto-increment ids, and the invariant `Valid`, which every writing handler keeps |
| averages.dfy | `Averages` | the two ways the mean rating is computed (SQL `AVG` and `reduce`/`length`), and a proof that they agree |
| passwords.dfy | `Passwords` | the signup and update-password regular expressions, characterised as plain predicates |
| services.dfy | `Services` | bcrypt, jsonwebtoken and the email checker as abstract functions, with what each library promises |
| validators.dfy | `Validators` | the Joi schemas for signup and login |
| auth_flows.dfy | `AuthFlows` | signup, login and update-password |
| gate.dfy | `Gate` | the `auth` middleware (bearer header, token, user reload) and the role each route requires |
| rating_engine.dfy | `RatingEngine` | submitting a rating (the upsert), the store list with averages, and a store's ratings |
| store_controller.dfy | `StoreController` | an owner's own stores |
| admin_directory.dfy | `AdminDirectory` | the admin dashboard; creating, filtering and reading users and stores |
| client_routes.dfy | `ClientRoutes` | the front end's route table, `privateRoute` and the `/dashboard` redirect |
| client_signup.dfy | `ClientSignup` | the signup page's checks before it posts |
| client_stores.dfy | `ClientStores` | the store page's search, its map of chosen ratings, and the submit guard |

Conventions:
- A request field is `Field = Missing | Null | Text(s)`. This separates an absent key, an explicit `null` and a string. The handlers treat these differently:
  - JavaScript truthiness: `Missing`, `Null` and `Text("")` are falsy;
  - Joi's `required()` rejects an absent key;
  - Sequelize throws on an `undefined` value in a `where`;
  - the `allowNull: false` columns refuse a missing value.
- A thrown exception that a handler's `catch` turns into a response becomes that response, usually `500 Server error`.
- An insert gets a fresh id, one no row of its table has. The model picks one more than the largest id in the table; MySQL's AUTO_INCREMENT may skip values, and no property depends on which fresh id is chosen. Rows are never deleted within the model's scope.
- bcrypt and jsonwebtoken are function-valued fields of `Services.Services`. The salt and the current time are explicit parameters. Lemmas that need a library's guarantee state it as a precondition: `HashVerifies` (a digest verifies against its own plaintext) and `TokensDecode` (a signed token decodes to its claims until it expires).
- `requireRole(r)` lives in a file that is not part of this model. It is taken to admit exactly the users whose stored role is `r` and to answer 403 otherwise.

Three facts about the code that the model keeps as they are:
- A rating is submitted by find-then-update-or-create (`backend/controllers/ratingController.js:14-31`), and `backend/models/rating.js` declares no unique key on (user, store). The model proves that submits applied one after another keep at most one row per pair (`RatingEngine.SubmitKeepsUniquePairs`). Concurrent submits are outside the model.
- `getStoreRatings` makes no ownership check, so any store owner can read the ratings of any store (`RatingEngine.StoreRatingsIgnoreCaller`).
- Averages are kept as the exact mean, `sum / count`. The `toFixed` rounding the code applies when it renders them is left out.

## Model

| member | source | states |
|---|---|---|
| Models.ParseRole | backend/controllers/adminController.js:29-31 | a role is accepted iff it is one of "admin", "normal", "store_owner", and the accepted role's name is exactly the given text |
| Models.RoleNameRoundTrip | backend/models/user.js:14-17 | the ENUM names and role parsing are inverse to each other |
| Models.InsertUser | backend/models/user.js:5-17 | `User.create` succeeds iff the row meets the column constraints (name at most 60, a valid email, an address of at most 400) and no user has the email yet (the unique key); the row keeps every given field and gets an id no existing user has |
| Models.FindUser | backend/middlewares/auth.js:17 | `findByPk` finds a row with that id, and finds nothing iff no row has it |
| Models.FindUserByEmail | backend/controllers/authController.js:47 | `findOne` by email finds a row with that email, and finds nothing iff no row has it |
| Models.FindStore | backend/controllers/adminController.js:193-197 | `findByPk` on stores finds a row with that id, and finds nothing iff no row has it |
| Models.FindRating | backend/controllers/ratingController.js:14-16 | the lookup by (store, user) returns the index of a row with that key, and nothing iff no row has it |
| Models.RatingsOf | backend/models/store.js:17 | a store's ratings are exactly the rows with its store id, in table order |
| Models.AddUserKeepsValid | backend/models/user.js:6-13 | adding a user with a fresh id, an unused email and fitting columns keeps every table invariant |
| Models.RehashKeepsValid | backend/routes/auth.js:49-51 | replacing one user's password digest keeps every table invariant |
| Models.AddStoreKeepsValid | backend/models/store.js:5-16 | adding a store with a fresh id, a fitting address and a store_owner as owner keeps every table invariant |
| Models.AddRatingKeepsValid | backend/models/rating.js:5-19 | adding a rating with a fresh id, an unused (user, store) pair, a value in 1..5 and references that resolve keeps every table invariant |
| Models.SetRatingKeepsValid | backend/controllers/ratingController.js:18-20 | changing one rating's value to another value in 1..5 keeps every table invariant |
| Averages.SqlAverage | backend/controllers/ratingController.js:49-54 | `AVG(rating)` is NULL iff the store has no ratings, and otherwise is the sum of the store's ratings over their number |
| Averages.ReduceAverage | backend/controllers/adminController.js:163-169 | the reduce/length mean is null iff the included ratings are empty, and otherwise is their sum over their number |
| Averages.SqlAndReduceAgree | backend/controllers/adminController.js:163-169 | for every store, the SQL average and the reduce/length average over its included ratings are the same exact mean |
| Averages.MeanInRange | backend/models/rating.js:8 | the mean of ratings that are all in 1..5 lies between 1 and 5 |
| Averages.ExampleAverages | backend/controllers/adminController.js:199-205 | ratings 4, 5, 3 average to exactly 4, and no ratings average to null |
| Passwords.DotStarThenIff | backend/utils/validators.js:3-4 | over a string without line terminators, the look-ahead `(?=.*[C])` holds iff some character is in C |
| Passwords.SignupPatternIff | backend/utils/validators.js:3-4 | the signup pattern matches iff the length is 8 to 16, there is no line terminator, and there is an A–Z and one of the 32 listed symbols |
| Passwords.UpdatePatternIff | backend/routes/auth.js:40 | the update pattern matches iff the length is 8 to 16, there is no line terminator, and there is an A–Z and a character other than an ASCII letter or digit |
| Passwords.SignupStrongIsUpdateStrong | backend/routes/auth.js:40 | every password the signup pattern accepts is accepted by the update pattern |
| Passwords.SpaceIsUpdateSymbolOnly | backend/routes/auth.js:40 | the converse fails: "AAAAAAA " passes the update pattern but not the signup pattern |
| Validators.SignupValidIff | backend/utils/validators.js:7-12 | signup validation passes iff: the name has 20 to 60 characters; the email is a non-empty valid address; the address is absent, null or at most 400 characters; and the password is a string matching the pattern |
| Validators.HeldCredentialsPassLogin | backend/utils/validators.js:13-16 | credentials a user can hold pass login validation: those signup accepted, and an accepted email with a password the update-password rule accepted |
| Validators.LoginSkipsStrength | backend/utils/validators.js:13-16 | login does not check password strength: a valid email with the password "a" passes login validation, although signup refuses that password |
| AuthFlows.Signup | backend/controllers/authController.js:8-38 | invalid input answers 400 before any lookup; a registered email answers 400; both leave the tables unchanged. Success iff valid and unregistered: it appends exactly one `normal` user holding the digest, exposes only id and email, and keeps `Valid` |
| AuthFlows.Login | backend/controllers/authController.js:41-73 | invalid input answers 400; an unknown email and a wrong password get the same 401. Success iff the password verifies: the token is signed over the stored id and role with a seven-day expiry, and the reply has id, name, email and role |
| AuthFlows.SignupThenLogin | backend/controllers/authController.js:19-67 | after a successful signup, logging in with the same email and password succeeds, with the new id and role `normal` |
| AuthFlows.UpdatePassword | backend/routes/auth.js:23-58 | the guards run in order, each with its own reply: fields present (400), user exists (404), old password verifies (401), new password strong (400 "weak password"). Every failure leaves the tables unchanged. Success replaces only the caller's digest with a fresh one, leaves every other row and table alone, and keeps `Valid` |
| Gate.Split | backend/middlewares/auth.js:13 | `split(" ")` yields space-free fields, and at least two when the header has a space |
| Gate.JoinSplit | backend/middlewares/auth.js:13 | joining the fields with spaces gives back the header |
| Gate.SplitJoin | backend/middlewares/auth.js:13 | splitting space-free fields joined with spaces gives back the fields |
| Gate.BearerToken | backend/middlewares/auth.js:9-13 | a token is extracted iff the header is present and starts with "Bearer " (case-sensitive); it is the second field of the split |
| Gate.BearerRoundTrip | backend/middlewares/auth.js:9-13 | the header "Bearer " + t yields exactly t for any space-free token t |
| Gate.Authenticate | backend/middlewares/auth.js:6-27 | the outcomes are: a missing or malformed header gives 401 with no lookup; a token that does not verify, or a failing lookup, gives 401 "Invalid or expired token"; an unknown id gives 401 "Invalid user". Admission happens iff all checks pass, and the admitted user is the stored row, not the token's claims |
| Gate.RequiredRole | backend/routes/rating.js:8-22 | submit and the store list require normal, a store's ratings require store_owner, update-password and the owner's own stores require no role, and every other (admin) route requires admin |
| Gate.Guard | backend/routes/rating.js:8-22 | a route runs iff authentication admits and the stored role equals the role the route requires (normal for submit and store list, store_owner for a store's ratings, admin for every admin route); an authenticated user with the wrong stored role gets exactly 403 "Access denied" |
| Gate.BadTokenRefusedEverywhere | backend/middlewares/auth.js:23-26 | a token that does not verify is refused with 401 "Invalid or expired token" on every endpoint |
| Gate.NormalUserForbidden | backend/routes/admin.js:8 | an authenticated normal user gets 403 from every admin and store-owner route |
| Gate.StoredRoleWins | backend/middlewares/auth.js:16-22 | a token claiming admin for a user whose row says normal is refused by the admin routes |
| Gate.IssuedTokenAdmits | backend/controllers/authController.js:55-57 | a token that login issued to a user admits exactly that user's row until it expires |
| RatingEngine.Submit | backend/controllers/ratingController.js:4-38 | the outcomes are: a missing value or one outside 1..5 gets 400 with no change; with a valid value, an absent store id gets 500 with no change; an existing (caller, store) row gets the new value in place with 200; otherwise exactly one row is appended with 201, or 500 if the store or the caller does not exist. Other users' and other stores' rows never change, and `Valid` is kept |
| RatingEngine.SubmitLeavesOneRow | backend/controllers/ratingController.js:14-31 | after a successful submit, exactly one row exists for (caller, store) |
| RatingEngine.SubmitTwiceKeepsOneRow | backend/controllers/ratingController.js:14-24 | submitting v1 and then v2 for the same pair leaves the row count unchanged by the second submit, and one row for the pair, holding v2 |
| RatingEngine.SubmitKeepsUniquePairs | backend/controllers/ratingController.js:14-31 | submits applied in sequence keep at most one rating per (user, store) |
| RatingEngine.ListStores | backend/controllers/ratingController.js:41-64 | every store is listed in table order with id, name and address; its average is null iff it has no ratings, and equals the reduce/length mean over its ratings |
| RatingEngine.GetStoreRatings | backend/controllers/ratingController.js:67-82 | an unknown store answers 404 (and only then); a known store always gets 200, with exactly the store's ratings, each with its rater row |
| RatingEngine.StoreRatingsIgnoreCaller | backend/controllers/ratingController.js:67-82 | the reply is the same whoever asks: ownership is not checked |
| AdminDirectory.DetailStoreHeadsMyStores | backend/controllers/adminController.js:94-97 | the store the admin's user detail averages is the first store `GET /api/store/my` lists for that owner, and there is none iff that list is empty |
| StoreController.GetMyStores | backend/controllers/storeController.js:4-21 | a failing query answers 500; otherwise 200 with exactly the caller's stores in table order, which is empty iff the caller owns none |
| Common.SelectDesc | backend/controllers/adminController.js:68-72 | `findAll` with `order: [["id", "DESC"]]` returns each matching row and only matching rows, in non-increasing id order, as a permutation of the matches |
| AdminDirectory.GetDashboard | backend/controllers/adminController.js:9-20 | the three counts are the sizes of the users, stores and ratings tables; the lemmas below show how each writing handler moves them |
| AdminDirectory.CreateUser | backend/controllers/adminController.js:25-52 | the outcomes are: an unknown role gets 400 before any lookup; a registered email gets 400; past those two guards, every refusal (an absent or null email or password, or a row the columns refuse) is exactly 500 "Server error". Every failure leaves the tables unchanged. Otherwise exactly one user with the given role and a digest is appended, returned with 201, and `Valid` is kept |
| AdminDirectory.GetUsers | backend/controllers/adminController.js:57-79 | lists exactly the users matching every truthy filter (name, email, address as substrings, role exactly), newest id first, each exactly once, as views without the password digest |
| AdminDirectory.FirstOwnedStore | backend/controllers/adminController.js:94-97 | finds a store of that owner, and nothing iff the owner has none |
| AdminDirectory.GetUserById | backend/controllers/adminController.js:84-117 | an unknown id gets 404, and a known id always gets 200. A store_owner with a store gets `rating`, the mean over their first store, null iff that store is unrated. Anyone else gets the plain view |
| AdminDirectory.CreateStore | backend/controllers/adminController.js:122-141 | the outcomes are: an owner id that is absent, unknown or not a store_owner gets 400 with no change; with a valid owner, every refusal (a missing name, a name or email over 255 characters, or an address over 400) is exactly 500 "Server error". Otherwise exactly one store is appended, returned with 201, and `Valid` is kept |
| AdminDirectory.ListingOf | backend/controllers/adminController.js:163-178 | a listed store's average_rating is null iff it has no ratings, and otherwise is the SQL mean of its ratings |
| AdminDirectory.GetStores | backend/controllers/adminController.js:146-186 | lists exactly the stores matching every truthy filter, newest id first, each exactly once, with its average |
| AdminDirectory.GetStoreById | backend/controllers/adminController.js:191-212 | an unknown id gets 404 (and only then); a known id always gets 200, with the store with exactly its ratings, and an average that is null iff there are none |
| AdminDirectory.CreatedUserIsListed | backend/controllers/adminController.js:39-47 | a user just created adds one to the dashboard's user count, is found by id, and appears in the unfiltered user list |
| AdminDirectory.RoleFilterSelectsRole | backend/controllers/adminController.js:66 | a role filter lists only users of that role, and a filter naming no role lists nobody; role names compare exactly |
| AdminDirectory.CreatedStoreIsUnrated | backend/controllers/adminController.js:134-136 | a store just created adds one to the dashboard's store count, and its detail has no ratings and a null average |
| AdminDirectory.AdminAndRaterAveragesAgree | backend/controllers/adminController.js:199-205 | the admin's store detail and the normal user's store list show the same average for every store |
| AdminDirectory.SubmitMovesRatingCount | backend/controllers/adminController.js:11-15 | the dashboard's rating count grows by one exactly when a submit creates a row; updates and refusals leave every count unchanged |
| ClientRoutes.PrivateRoute | frontend/src/App.jsx:34-39 | a guarded page renders iff a non-empty token is stored and the stored role is in the page's list; otherwise it redirects to "/" |
| ClientRoutes.Dashboard | frontend/src/App.jsx:72-87 | `/dashboard` sends: no token → "/"; admin → the admin dashboard; store_owner → the owner dashboard; anything else → `/stores` |
| ClientRoutes.Route | frontend/src/App.jsx:44-94 | after ignoring ASCII case and trailing slashes: admin pages render only for admin, the owner dashboard only for store_owner, `/stores` only for normal; change-password renders iff a token is stored; every other redirect goes to "/" |
| ClientRoutes.DashboardLandsOnHome | frontend/src/App.jsx:72-87 | with a token, each role's `/dashboard` redirect ends on that role's own page |
| ClientRoutes.NoRedirectLoop | frontend/src/App.jsx:44-94 | every path renders a page after at most two redirects |
| ClientRoutes.UnknownRoleSeesNoRolePage | frontend/src/App.jsx:49-69 | a stored role outside the three names opens no role-guarded page |
| ClientRoutes.HomePageOpensForItsRole | frontend/src/App.jsx:49-69 | each role's home page renders for that role when a token is stored |
| ClientRoutes.TrimSlashes | frontend/src/App.jsx:44-94 | trailing slashes are dropped and nothing else: the result is a prefix of the path, what is dropped is all `/`, and the result keeps at least the leading character |
| ClientRoutes.RouteIgnoresTrailingSlash | frontend/src/App.jsx:44-94 | a path with one more trailing slash routes the same way |
| ClientRoutes.RouteIgnoresCase | frontend/src/App.jsx:44-94 | a path routes the same way as its lower-cased form |
| ClientRoutes.SlashAndCaseExamples | frontend/src/App.jsx:69-87 | "/dashboard/" sends an admin to the admin dashboard, and "/Stores" renders the store page for a normal user |
| ClientSignup.SubmitSignup | frontend/src/pages/Signup.jsx:25-45 | the checks run in the order name length (20 to 60), address length (at most 400), password pattern, and only the first failure is reported; the form is posted iff all three pass |
| ClientSignup.ClientAgreesWithServer | frontend/src/pages/Signup.jsx:9-12 | the page posts a form with a valid email iff the server's signup schema accepts it, so the page and the server use the same name, address and password rules |
| ClientSignup.SentPasswordIsUpdateStrong | frontend/src/pages/Signup.jsx:36-41 | a password the page lets through also satisfies the update-password rule |
| ClientStores.FilterAsWritten | frontend/src/pages/Stores.jsx:44-48 | the filter as written throws iff some store's name misses the query and its address is null |
| ClientStores.SearchAsWritten | frontend/src/pages/Stores.jsx:41-50 | the search effect as written fails iff some store has a non-matching name and a null address |
| ClientStores.Search | frontend/src/pages/Stores.jsx:41-50 | the corrected search keeps exactly the stores whose lower-cased name or address contains the lower-cased query, as an order-preserving subsequence |
| ClientStores.AsWrittenAgreesUnlessThrows | frontend/src/pages/Stores.jsx:44-48 | whenever the filter as written does not throw, it returns the corrected search's result |
| ClientStores.SearchAsWrittenWithAddresses | frontend/src/pages/Stores.jsx:41-50 | when every store has an address, the search as written succeeds and equals the corrected one |
| ClientStores.NullAddressBreaksSearch | frontend/src/pages/Stores.jsx:47 | a store "A" with a null address makes the query "b" throw, where the corrected search returns nothing |
| ClientStores.EmptyQueryKeepsAll | frontend/src/pages/Stores.jsx:41-50 | an empty query keeps every store in order, both as written and corrected |
| ClientStores.InitialRatings | frontend/src/pages/Stores.jsx:23-28 | the map holds exactly the ids of stores with a truthy `user_rating`, each mapped to such a store's value |
| ClientStores.FetchedStoresStartUnrated | frontend/src/pages/Stores.jsx:25-26 | the store list as served has no `user_rating`, so the page starts with no rating chosen |
| ClientStores.CallerRating | frontend/src/pages/Stores.jsx:25-26 | the caller's rating of a store exists iff some row has the (caller, store) key, and it is that row's value |
| ClientStores.CallerRatingsPreselected | frontend/src/pages/Stores.jsx:23-28 | served a list carrying the caller's ratings, the page preselects exactly the stores the caller rated, with the caller's values, all of them selectable |
| ClientStores.RatingOptionsAreValidValues | frontend/src/pages/Stores.jsx:212 | the select offers exactly the values the ratings table accepts, 1..5 |
| ClientStores.Choose | frontend/src/pages/Stores.jsx:206-209 | choosing sets only that store's entry: 0 for the placeholder, otherwise the option chosen |
| ClientStores.HandleRating | frontend/src/pages/Stores.jsx:52-63 | with no truthy choice for the store, the page alerts and posts nothing; otherwise it posts that store's choice |
| ClientStores.ChooseKeepsSelectable | frontend/src/pages/Stores.jsx:206-212 | choosing through the select keeps every entry 0 or an offered value |
| ClientStores.InitialRatingsSelectable | frontend/src/pages/Stores.jsx:23-28 | a map built from stored rating values holds only offered values |
| ClientStores.PostedRatingPassesRangeCheck | frontend/src/pages/Stores.jsx:52-63 | a rating the page posts always passes the server's range check, so such a submit is never refused with 400 |

## Findings

| source | as written | input that shows it | evidently intended | confidence | as-written member | corrected member |
|---|---|---|---|---|---|---|
| frontend/src/pages/Stores.jsx:44-48 | the search callback calls `s.address.toLowerCase()` for every store whose name misses the query, but a store's address may be null (`backend/models/store.js:7`, and `createStore` accepts no address) | a store named "A" with a null address, and the query "b": `null.toLowerCase()` throws inside the effect | a store with no address simply does not match on its address | high (not executed) | ClientStores.SearchAsWritten | ClientStores.Search |
| frontend/src/pages/Stores.jsx:23-28 | the page preselects each store's `user_rating` and labels the button "Update Rating" when it is set (`Stores.jsx:245`), but `listStores` (`backend/controllers/ratingController.js:44-56`) selects only id, name, address and average_rating | any store list served to any caller: the map starts empty, and a store the caller already rated shows "Submit Rating" | the store list carries the caller's own rating as `user_rating` | medium (not executed) | ClientStores.FetchedStoresStartUnrated | ClientStores.CallerRatingsPreselected |

The proofs behind the findings:
- `ClientStores.NullAddressBreaksSearch` exhibits the first input.
- `ClientStores.SearchAsWrittenWithAddresses` shows that the two searches agree whenever every address is set.
- `ClientStores.CardsFor` is the corrected store list. It carries `user_rating`.

## Left out

- bcrypt and jsonwebtoken are abstract functions. Salting, hashing cost, signature checking and the JWT format are not modelled. The expiry rule is expressed through `Services.TokensDecode`.
- Joi's email rule and Sequelize's `isEmail` validator are one abstract predicate, `isEmail`. Joi's messages are reduced to one constant. Joi's treatment of unknown keys and of non-string JSON values is not modelled: request fields are absent, `null` or strings.
- SQL `LIKE` is a plain substring test. The MySQL collation's case-insensitivity and the `%` and `_` wildcards inside a filter value are not modelled.
- AdminDirectory.RoleFilterSelectsRole: MySQL compares the role filter (`backend/controllers/adminController.js:66`) under a case-insensitive collation, so `role=Admin` lists the admins; the model compares exactly, so there it lists nobody. The email lookups (`backend/controllers/authController.js:15,47`, `backend/controllers/adminController.js:33`) and the unique email key are likewise exact string equality in the model, where MySQL would treat `A@x.com` and `a@x.com` as one email.
- RatingEngine.Submit: a body with `"store_id": null` is not modelled. Sequelize turns it into `store_id IS NULL`, then `Rating.create` stores a row whose nullable foreign key is NULL and answers 201, so such a row would refer to no store and break `Models.Valid`. A fractional or numeric-string rating such as 4.5 passes the `!rating || rating < 1 || rating > 5` check; the SMALLINT column stores a rounded value while the reply echoes 4.5. The model's store id is an absent or integer field and its rating an integer, so neither input can be expressed.
- A request with no JSON body is not modelled. Express 5 (`backend/app.js:27`) leaves `req.body` undefined; destructuring it then throws (`backend/controllers/authController.js:13,46`, `backend/controllers/ratingController.js:6`, `backend/routes/auth.js:25`, `backend/controllers/adminController.js:27,124`) and the handler answers 500. The model's bodies always exist, with each field absent, null or a string.
- Column overflow is taken to be refused (500), as MySQL does in strict SQL mode; a non-strict server would truncate instead. `users.email` and `users.password_hash` are VARCHAR(255) but are not bounded in the model: `isEmail` refuses addresses longer than 254 characters and a bcrypt digest has 60.
- Percent-decoding of the client's URL path before React Router matches it is not modelled; paths are compared as given, after lower-casing and trimming trailing slashes.
- Averages are exact means `(sum, count)`. The `toFixed(2)` and `toFixed(1)` renderings and MySQL's decimal `AVG` string are floating-point formatting, so they are left out.
- Concurrency: two submits racing between the find and the create could insert two rows for one pair. The model covers submits applied one after another.
- Store-layer exceptions are modelled only where the code distinguishes them: the gate's lookup (`storeFault`, 401), `getMyStores` (500), and Sequelize's refusals of undefined `where` values and invalid rows (500). A database outage elsewhere, which would answer 500, is not modelled.
- AuthFlows.Signup: the 500 "Internal server error" that a failing insert would give cannot happen in the model, because validation already implies the column constraints.
- `middlewares/role` is not part of this model. `requireRole(r)` is taken to be "stored role equals r, else 403".
- `toLowerCase` is ASCII-only (`Common.ToLower`). JavaScript also folds non-ASCII letters.
- `String.length` and Joi's lengths count UTF-16 code units. Here a `char` stands for one code unit.
- React state, rendering, animation, `localStorage` syncing, `alert` and `navigate` side effects, and the network calls of the pages are not modelled. The other pages (login, change password, the admin and owner dashboards) are UI over the same endpoints and are also not modelled.
- Express wiring, configuration and start-up are not modelled (`app.js`, `config.js`, `models/index.js`, `sync.js`, `test-db.js`). Only the role each route mounts is kept (`Gate.RequiredRole`).
- Response messages such as "User created successfully" and the serialised JSON shapes are reduced to the fields a property talks about.

=== FILE: admin_directory.dfy ===
/**
 The admin controller: dashboard counts, creating and listing users and
 stores with conjunctive optional filters, and the per-user and per-store
 detail views with their average rating. Every route here sits behind
 `auth` and `requireRole("admin")`.

 `LIKE '%x%'` filters are modelled as plain substring tests and the role
 filter as an exact match; the database collation (case-insensitivity) and
 the `%`/`_` wildcards inside a filter value are not part of the model.
 */
module AdminDirectory {
  import opened Common
  import opened Models
  import opened Services
  import opened Averages
  import opened RatingEngine
  import opened StoreController

  const INVALID_ROLE: string := "Invalid role"
  const EMAIL_TAKEN: string := "Email already registered"
  const SERVER_ERROR_MESSAGE: string := "Server error"
  const USER_NOT_FOUND: string := "User not found"
  const STORE_NOT_FOUND: string := "Store not found"
  const OWNER_INVALID: string := "Owner must be an existing user with role store_owner"

  // ---------------------------------------------------------------------
  // Dashboard
  // ---------------------------------------------------------------------

  datatype Counts = Counts(totalUsers: nat, totalStores: nat, totalRatings: nat)

  /**
   GET /api/admin/dashboard: `count()` of each table. The contract is the
   table sizes themselves; `CreatedUserIsListed`, `CreatedStoreIsUnrated`
   and `SubmitMovesRatingCount` show how each writing handler moves them.
   */
  function GetDashboard(db: Db): (c: Counts)
    ensures c.totalUsers == |db.users| && c.totalStores == |db.stores| && c.totalRatings == |db.ratings|
  {
    Counts(|db.users|, |db.stores|, |db.ratings|)
  }

  // ---------------------------------------------------------------------
  // Users
  // ---------------------------------------------------------------------

  datatype NewUser = NewUser(name: Field, email: Field, address: Field, password: Field, role: Field)

  /**
   POST /api/admin/users. The guards run in the source's order:
   - a role outside admin/normal/store_owner: 400, before any lookup;
   - an email already registered: 400;
   - an absent email (Sequelize refuses `undefined` in a `where`), a null
     one, an absent password (bcrypt throws), or a row the `users` columns
     refuse (no name, a name over 60 characters, an invalid email, an
     address over 400): 500;
   - otherwise one user with the given role is appended and returned, digest included, with 201.
   Unlike signup, no length or strength rule is applied to the name or
   password here beyond the column constraints.
   */
  function CreateUser(db: Db, svc: Services, body: NewUser, salt: nat): (s: Step<User>)
    ensures ParseRole(body.role).None? ==> s == Step(Err(BAD_REQUEST, INVALID_ROLE), db)
    ensures ParseRole(body.role).Some? && body.email.Text? && FindUserByEmail(db.users, body.email.text).Some? ==>
      s == Step(Err(BAD_REQUEST, EMAIL_TAKEN), db)
    ensures s.reply.Ok? <==>
      && ParseRole(body.role).Some?
      && body.email.Text? && FindUserByEmail(db.users, body.email.text).None?
      && body.password.Text? && body.name.Text?
      && |body.name.text| <= USER_NAME_MAX && svc.isEmail(body.email.text) && AddressFits(Nullable(body.address))
    // Past the role and email guards, every refusal is the catch-all 500.
    ensures ParseRole(body.role).Some? && (body.email.Text? ==> FindUserByEmail(db.users, body.email.text).None?) ==>
      s.reply.Err? ==> s == Step(Err(SERVER_ERROR, SERVER_ERROR_MESSAGE), db)
    ensures s.reply.Err? ==> s.db == db
    ensures s.reply.Err? ==> s.reply.status in {BAD_REQUEST, SERVER_ERROR}
    ensures s.reply.Ok? ==>
      && s.reply.status == CREATED
      && s.db == db.(users := db.users + [s.reply.value])
      && s.reply.value == User(s.reply.value.id, body.name.text, body.email.text,
                              svc.hash(body.password.text, salt), Nullable(body.address), ParseRole(body.role).value)
      && FindUser(db.users, s.reply.value.id).None?
    ensures Valid(db) ==> Valid(s.db)
  {
    match ParseRole(body.role)
    case None => Step(Err(BAD_REQUEST, INVALID_ROLE), db)
    case Some(role) =>
      if !body.email.Text? then Step(Err(SERVER_ERROR, SERVER_ERROR_MESSAGE), db)
      else if FindUserByEmail(db.users, body.email.text).Some? then Step(Err(BAD_REQUEST, EMAIL_TAKEN), db)
      else if !body.password.Text? || !body.name.Text? then Step(Err(SERVER_ERROR, SERVER_ERROR_MESSAGE), db)
      else
        var digest := svc.hash(body.password.text, salt);
        match InsertUser(db.users, body.name.text, body.email.text, digest, Nullable(body.address), role, svc.isEmail)
        case None => Step(Err(SERVER_ERROR, SERVER_ERROR_MESSAGE), db)
        case Some(u) =>
          var db' := db.(users := db.users + [u]);
          assert Valid(db) ==> Valid(db') by { if Valid(db) { AddUserKeepsValid(db, u); } }
          Step(Ok(CREATED, u), db')
  }

  /** A user as the admin endpoints return it: `attributes: ["id", "name", "email", "address", "role"]`, no digest. */
  datatype UserView = UserView(id: Id, name: string, email: string, address: Option<string>, role: Role)

  function ViewOf(u: User): UserView {
    UserView(u.id, u.name, u.email, u.address, u.role)
  }

  /** The query string of GET /api/admin/users; each filter applies only when truthy. */
  datatype UserFilter = UserFilter(name: Field, email: Field, address: Field, role: Field)

  /** A column value matched by `LIKE '%x%'`; a NULL column matches nothing. */
  predicate LikeFilter(f: Field, column: Option<string>) {
    Truthy(f) ==> column.Some? && Contains(column.value, f.text)
  }

  /** The `where` the handler builds: every truthy filter must hold; `role` is an exact match. */
  predicate UserMatches(f: UserFilter, u: User) {
    && LikeFilter(f.name, Some(u.name))
    && LikeFilter(f.email, Some(u.email))
    && LikeFilter(f.address, u.address)
    && (Truthy(f.role) ==> RoleName(u.role) == f.role.text)
  }

  /** The `where` as a predicate on rows. */
  function UserMatcher(f: UserFilter): User -> bool {
    (u: User) => UserMatches(f, u)
  }

  function UserKey(): User -> nat {
    (u: User) => u.id
  }

  function ViewKey(): UserView -> nat {
    (v: UserView) => v.id
  }

  /**
   GET /api/admin/users: exactly the users matching every given filter,
   newest id first, without their password digest.
   */
  function GetUsers(db: Db, f: UserFilter): (r: seq<UserView>)
    ensures forall i :: 0 <= i < |r| ==>
      exists k :: 0 <= k < |db.users| && UserMatches(f, db.users[k]) && r[i] == ViewOf(db.users[k])
    ensures forall k :: 0 <= k < |db.users| && UserMatches(f, db.users[k]) ==> ViewOf(db.users[k]) in r
    ensures |r| == Count(db.users, UserMatcher(f))
    ensures DescendingBy(r, ViewKey())
  {
    SelectDescAs(db.users, UserMatcher(f), UserKey(), (u: User) => ViewOf(u), ViewKey())
  }

  /** The store `Store.findOne({ where: { owner_id } })` finds: the first one in table order. */
  function FirstOwnedStore(stores: seq<Store>, ownerId: Id): (r: Option<Store>)
    ensures r.Some? ==> r.value in stores && r.value.ownerId == ownerId
    ensures r.None? <==> forall k :: 0 <= k < |stores| ==> stores[k].ownerId != ownerId
  {
    match FirstIndex(stores, OwnedBy(ownerId))
    case None => None
    case Some(i) => Some(stores[i])
  }

  /**
   The store whose average the admin's user detail reports for an owner is
   the first store of that owner's own list, and there is one exactly when
   the list is not empty.
   */
  lemma DetailStoreHeadsMyStores(db: Db, ownerId: Id)
    ensures GetMyStores(db, ownerId, false).Ok?
    ensures var mine := GetMyStores(db, ownerId, false).value;
      FirstOwnedStore(db.stores, ownerId) == (if |mine| == 0 then None else Some(mine[0]))
  {
    FilterHeadIsFirstMatch(db.stores, OwnedBy(ownerId));
  }

  /** GET /api/admin/users/:id: a plain user, or a store owner with the average of their (first) store. */
  datatype UserDetail = Plain(view: UserView) | OwnerWithRating(view: UserView, rating: Option<Mean>)

  /**
   GET /api/admin/users/:id. 404 for an unknown id. A store owner who owns a
   store gets `rating`, the mean over the first store found (null when it
   has no ratings); anyone else, and an owner with no store, is returned
   plain.
   */
  function GetUserById(db: Db, id: Id): (r: Reply<UserDetail>)
    ensures FindUser(db.users, id).None? <==> r == Err(NOT_FOUND, USER_NOT_FOUND)
    ensures FindUser(db.users, id).Some? ==> r.Ok?
    ensures r.Ok? ==> r.status == OK && r.value.view == ViewOf(FindUser(db.users, id).value)
    ensures r.Ok? ==>
      (r.value.OwnerWithRating? <==> FindUser(db.users, id).value.role == StoreOwner && FirstOwnedStore(db.stores, id).Some?)
    ensures r.Ok? && r.value.OwnerWithRating? ==>
      var st := FirstOwnedStore(db.stores, id).value;
      && r.value.rating == SqlAverage(db.ratings, st.id)
      && (r.value.rating.None? <==> forall k :: 0 <= k < |db.ratings| ==> db.ratings[k].storeId != st.id)
  {
    match FindUser(db.users, id)
    case None => Err(NOT_FOUND, USER_NOT_FOUND)
    case Some(u) =>
      if u.role == StoreOwner && FirstOwnedStore(db.stores, u.id).Some? then
        var st := FirstOwnedStore(db.stores, u.id).value;
        SqlAndReduceAgree(db.ratings, st.id);
        Ok(OK, OwnerWithRating(ViewOf(u), ReduceAverage(RatingsOf(db.ratings, st.id))))
      else Ok(OK, Plain(ViewOf(u)))
  }

  // ---------------------------------------------------------------------
  // Stores
  // ---------------------------------------------------------------------

  datatype NewStore = NewStore(name: Field, email: Field, address: Field, ownerId: Option<Id>)

  /**
   POST /api/admin/stores. 400 unless `owner_id` names an existing user
   whose role is store_owner (`findByPk` of an absent id finds nothing);
   500 when the `stores` columns refuse the row (no name, a name or email
   over 255 characters, an address over 400); otherwise one store is
   appended and returned with 201.
   */
  function CreateStore(db: Db, body: NewStore): (s: Step<Store>)
    ensures body.ownerId.None? || FindUser(db.users, body.ownerId.value).None? ||
            FindUser(db.users, body.ownerId.value).value.role != StoreOwner ==>
      s == Step(Err(BAD_REQUEST, OWNER_INVALID), db)
    // With a valid owner, a refused row is the catch-all 500.
    ensures body.ownerId.Some? && FindUser(db.users, body.ownerId.value).Some? &&
            FindUser(db.users, body.ownerId.value).value.role == StoreOwner ==>
      s.reply.Err? ==> s == Step(Err(SERVER_ERROR, SERVER_ERROR_MESSAGE), db)
    ensures s.reply.Ok? <==>
      && body.ownerId.Some? && FindUser(db.users, body.ownerId.value).Some?
      && FindUser(db.users, body.ownerId.value).value.role == StoreOwner
      && body.name.Text? && |body.name.text| <= STRING_MAX
      && FitsIn(Nullable(body.email), STRING_MAX) && AddressFits(Nullable(body.address))
    ensures s.reply.Err? ==> s.db == db
    ensures s.reply.Ok? ==>
      && s.reply.status == CREATED
      && s.db == db.(stores := db.stores + [s.reply.value])
      && s.reply.value == Store(s.reply.value.id, body.name.text, Nullable(body.email), Nullable(body.address), body.ownerId.value)
      && FindStore(db.stores, s.reply.value.id).None?
    ensures Valid(db) ==> Valid(s.db)
  {
    if body.ownerId.None? || FindUser(db.users, body.ownerId.value).None? ||
       FindUser(db.users, body.ownerId.value).value.role != StoreOwner then
      Step(Err(BAD_REQUEST, OWNER_INVALID), db)
    else if !body.name.Text? then Step(Err(SERVER_ERROR, SERVER_ERROR_MESSAGE), db)
    else
      var st := Store(NextId(StoreIds(db.stores)), body.name.text, Nullable(body.email), Nullable(body.address), body.ownerId.value);
      if !StoreRowOk(st) then Step(Err(SERVER_ERROR, SERVER_ERROR_MESSAGE), db)
      else
        var db' := db.(stores := db.stores + [st]);
        assert Valid(db) ==> Valid(db') by { if Valid(db) { AddStoreKeepsValid(db, st); } }
        Step(Ok(CREATED, st), db')
  }

  /** The query string of GET /api/admin/stores. */
  datatype StoreFilter = StoreFilter(name: Field, email: Field, address: Field)

  predicate StoreMatches(f: StoreFilter, st: Store) {
    LikeFilter(f.name, Some(st.name)) && LikeFilter(f.email, st.email) && LikeFilter(f.address, st.address)
  }

  /** One entry of GET /api/admin/stores. */
  datatype StoreListing = StoreListing(id: Id, name: string, address: Option<string>, email: Option<string>,
                                       ownerId: Id, average: Option<Mean>)

  /** A store as listed, with the reduce-computed mean of its included ratings. */
  function ListingOf(db: Db, st: Store): (l: StoreListing)
    ensures l.average == SqlAverage(db.ratings, st.id)
    ensures l.average.None? <==> forall k :: 0 <= k < |db.ratings| ==> db.ratings[k].storeId != st.id
  {
    SqlAndReduceAgree(db.ratings, st.id);
    StoreListing(st.id, st.name, st.address, st.email, st.ownerId, ReduceAverage(RatingsOf(db.ratings, st.id)))
  }

  function StoreMatcher(f: StoreFilter): Store -> bool {
    (st: Store) => StoreMatches(f, st)
  }

  function StoreKey(): Store -> nat {
    (st: Store) => st.id
  }

  function ListingKey(): StoreListing -> nat {
    (l: StoreListing) => l.id
  }

  /**
   GET /api/admin/stores: exactly the stores matching every given filter,
   newest id first, each with its average rating (null when unrated).
   */
  function GetStores(db: Db, f: StoreFilter): (r: seq<StoreListing>)
    ensures forall i :: 0 <= i < |r| ==>
      exists k :: 0 <= k < |db.stores| && StoreMatches(f, db.stores[k]) && r[i] == ListingOf(db, db.stores[k])
    ensures forall k :: 0 <= k < |db.stores| && StoreMatches(f, db.stores[k]) ==> ListingOf(db, db.stores[k]) in r
    ensures |r| == Count(db.stores, StoreMatcher(f))
    ensures DescendingBy(r, ListingKey())
  {
    SelectDescAs(db.stores, StoreMatcher(f), StoreKey(), (st: Store) => ListingOf(db, st), ListingKey())
  }

  /** GET /api/admin/stores/:id: the store, its ratings and their average. */
  datatype StoreDetail = StoreDetail(store: Store, ratings: seq<Rating>, average: Option<Mean>)

  /** GET /api/admin/stores/:id. 404 for an unknown id; otherwise the store with its ratings and their mean. */
  function GetStoreById(db: Db, id: Id): (r: Reply<StoreDetail>)
    ensures FindStore(db.stores, id).None? <==> r == Err(NOT_FOUND, STORE_NOT_FOUND)
    ensures FindStore(db.stores, id).Some? ==> r.Ok?
    ensures r.Ok? ==>
      && r.status == OK
      && r.value.store == FindStore(db.stores, id).value
      && Subsequence(r.value.ratings, db.ratings)
      && (forall i :: 0 <= i < |r.value.ratings| ==> r.value.ratings[i].storeId == id)
      && (forall k :: 0 <= k < |db.ratings| && db.ratings[k].storeId == id ==> db.ratings[k] in r.value.ratings)
      && r.value.average == SqlAverage(db.ratings, id)
      && (r.value.average.None? <==> |r.value.ratings| == 0)
  {
    match FindStore(db.stores, id)
    case None => Err(NOT_FOUND, STORE_NOT_FOUND)
    case Some(st) =>
      var rs := RatingsOf(db.ratings, st.id);
      SqlAndReduceAgree(db.ratings, st.id);
      Ok(OK, StoreDetail(st, rs, ReduceAverage(rs)))
  }

  // ---------------------------------------------------------------------
  // How the endpoints relate
  // ---------------------------------------------------------------------

  /** A row appended with an id no earlier row has is what a lookup by that id finds. */
  lemma FindAppendedUser(users: seq<User>, u: User)
    requires FindUser(users, u.id).None?
    ensures FindUser(users + [u], u.id) == Some(u)
  {
    var v := FindUser(users + [u], u.id).value;
    assert (users + [u])[|users|] == u;
    assert v in users + [u];
  }

  lemma FindAppendedStore(stores: seq<Store>, st: Store)
    requires FindStore(stores, st.id).None?
    ensures FindStore(stores + [st], st.id) == Some(st)
  {
    var v := FindStore(stores + [st], st.id).value;
    assert (stores + [st])[|stores|] == st;
    assert v in stores + [st];
  }

  /**
   A user the admin has just created is counted by the dashboard, returned
   by GET /api/admin/users/:id and listed by an unfiltered GET /api/admin/users.
   */
  lemma CreatedUserIsListed(db: Db, svc: Services, body: NewUser, salt: nat)
    requires CreateUser(db, svc, body, salt).reply.Ok?
    ensures var s := CreateUser(db, svc, body, salt);
      var u := s.reply.value;
      && GetDashboard(s.db) == GetDashboard(db).(totalUsers := GetDashboard(db).totalUsers + 1)
      && GetUserById(s.db, u.id).Ok? && GetUserById(s.db, u.id).value.view == ViewOf(u)
      && ViewOf(u) in GetUsers(s.db, UserFilter(Missing, Missing, Missing, Missing))
  {
    var s := CreateUser(db, svc, body, salt);
    var u := s.reply.value;
    FindAppendedUser(db.users, u);
    assert s.db.users[|db.users|] == u;
    assert UserMatches(UserFilter(Missing, Missing, Missing, Missing), s.db.users[|db.users|]);
  }

  /**
   Filtering users by a role name lists only users of that role; so a role
   filter that names no role lists nobody. Role names are compared exactly
   here, as every string comparison of the model is.
   */
  lemma RoleFilterSelectsRole(db: Db, f: UserFilter, v: UserView)
    requires Truthy(f.role)
    requires v in GetUsers(db, f)
    ensures ParseRole(f.role) == Some(v.role)
  {
    ListedUserHasFilteredRole(db.users, f, GetUsers(db, f), v);
  }

  /** The step of RoleFilterSelectsRole that needs only the listing's first postcondition. */
  lemma ListedUserHasFilteredRole(users: seq<User>, f: UserFilter, r: seq<UserView>, v: UserView)
    requires Truthy(f.role)
    requires forall i :: 0 <= i < |r| ==>
      exists k :: 0 <= k < |users| && UserMatches(f, users[k]) && r[i] == ViewOf(users[k])
    requires v in r
    ensures ParseRole(f.role) == Some(v.role)
  {
    var i :| 0 <= i < |r| && r[i] == v;
    var k :| 0 <= k < |users| && UserMatches(f, users[k]) && r[i] == ViewOf(users[k]);
    MatchedRole(f, users[k]);
  }

  /** A user passing a truthy role filter has the role the filter names. */
  lemma MatchedRole(f: UserFilter, u: User)
    requires Truthy(f.role) && UserMatches(f, u)
    ensures ParseRole(f.role) == Some(u.role)
  {
    RoleNameRoundTrip(u.role);
  }

  /**
   A store the admin has just created has no ratings yet: its detail shows
   an empty list and a null average. Relies on every stored rating naming
   an existing store.
   */
  lemma CreatedStoreIsUnrated(db: Db, body: NewStore)
    requires Valid(db)
    requires CreateStore(db, body).reply.Ok?
    ensures var s := CreateStore(db, body);
      var st := s.reply.value;
      && GetDashboard(s.db) == GetDashboard(db).(totalStores := GetDashboard(db).totalStores + 1)
      && GetStoreById(s.db, st.id) == Ok(OK, StoreDetail(st, [], None))
  {
    var s := CreateStore(db, body);
    var st := s.reply.value;
    FindAppendedStore(db.stores, st);
    forall k | 0 <= k < |db.ratings|
      ensures db.ratings[k].storeId != st.id
    {
      assert FindStore(db.stores, db.ratings[k].storeId).Some?;
    }
  }

  /**
   The admin's store detail and the rater's store list report the same
   average for every store, although one is computed by the database and
   the other by reducing the included ratings.
   */
  lemma AdminAndRaterAveragesAgree(db: Db, i: nat)
    requires i < |db.stores|
    ensures GetStoreById(db, db.stores[i].id).Ok?
    ensures GetStoreById(db, db.stores[i].id).value.average == ListStores(db)[i].average
  {
    SqlAndReduceAgree(db.ratings, db.stores[i].id);
  }

  /**
   The dashboard's rating count follows the rating engine: a submit that
   updates an existing row leaves it as it was, one that creates a row adds
   one, and a refused submit changes nothing.
   */
  lemma SubmitMovesRatingCount(db: Db, callerId: Id, storeId: Option<Id>, value: Option<int>)
    ensures var s := Submit(db, callerId, storeId, value);
      && GetDashboard(s.db).totalUsers == GetDashboard(db).totalUsers
      && GetDashboard(s.db).totalStores == GetDashboard(db).totalStores
      && GetDashboard(s.db).totalRatings == GetDashboard(db).totalRatings + (if s.reply.Ok? && s.reply.status == CREATED then 1 else 0)
  {
    var s := Submit(db, callerId, storeId, value);
    if s.reply.Ok? && storeId.Some? && value.Some? && FindRating(db.ratings, callerId, storeId.value).Some? {
      assert s.reply.status == OK;
    }
  }
}

=== FILE: auth_flows.dfy ===
/**
 The unauthenticated flows of the auth controller (signup and login) and the
 update-password handler that the auth router defines inline. Each is a
 sequence of guards, each guard answering with its own status.
 */
module AuthFlows {
  import opened Common
  import opened Models
  import opened Services
  import opened Validators
  import opened Passwords

  /** Joi's message for the first failing key; its wording is the library's and is not modelled. */
  const VALIDATION_FAILED: string := "validation error"
  const EMAIL_TAKEN: string := "Email already registered"
  const BAD_CREDENTIALS: string := "Invalid email or password"
  const FIELDS_REQUIRED: string := "All fields are required"
  const USER_NOT_FOUND: string := "User not found"
  const OLD_PASSWORD_WRONG: string := "Old password is incorrect"
  const WEAK_PASSWORD: string := "Password must be 8–16 chars, include 1 uppercase and 1 special symbol"

  /** The signup response's `user`: only its id and email. */
  datatype SignupView = SignupView(id: Id, email: string)

  /** The login response: the token and `{ id, name, email, role }`. */
  datatype LoginView = LoginView(token: string, id: Id, name: string, email: string, role: Role)

  /**
   POST /api/auth/signup. Validation failure and a registered email both
   answer 400 and leave the tables alone; otherwise one `normal` user is
   appended holding the bcrypt digest of the password, and 201 reports its
   id and email.
   */
  function Signup(db: Db, svc: Services, body: SignupBody, salt: nat): (s: Step<SignupView>)
    ensures !SignupValid(body, svc.isEmail) ==> s == Step(Err(BAD_REQUEST, VALIDATION_FAILED), db)
    ensures SignupValid(body, svc.isEmail) && FindUserByEmail(db.users, body.email.text).Some? ==>
      s == Step(Err(BAD_REQUEST, EMAIL_TAKEN), db)
    ensures s.reply.Ok? <==> SignupValid(body, svc.isEmail) && FindUserByEmail(db.users, body.email.text).None?
    ensures s.reply.Err? ==> s.db == db
    ensures s.reply.Ok? ==>
      && s.reply.status == CREATED
      && |s.db.users| == |db.users| + 1
      && s.db.users[..|db.users|] == db.users
      && s.db.stores == db.stores && s.db.ratings == db.ratings
      && var u := s.db.users[|db.users|];
         && u == User(u.id, body.name.text, body.email.text, svc.hash(body.password.text, salt), Nullable(body.address), Normal)
         && FindUser(db.users, u.id).None?
         && UserRowOk(u, svc.isEmail)
         && s.reply.value == SignupView(u.id, u.email)
    ensures Valid(db) ==> Valid(s.db)
  {
    if !SignupValid(body, svc.isEmail) then Step(Err(BAD_REQUEST, VALIDATION_FAILED), db)
    else if FindUserByEmail(db.users, body.email.text).Some? then Step(Err(BAD_REQUEST, EMAIL_TAKEN), db)
    else
      var u := User(NewUserId(db.users), body.name.text, body.email.text,
                    svc.hash(body.password.text, salt), Nullable(body.address), Normal);
      var db' := db.(users := db.users + [u]);
      assert db'.users[..|db.users|] == db.users;
      assert Valid(db) ==> Valid(db') by { if Valid(db) { AddUserKeepsValid(db, u); } }
      Step(Ok(CREATED, SignupView(u.id, u.email)), db')
  }

  /**
   POST /api/auth/login. Answers 400 on a body Joi rejects, the same 401 for
   an unknown email and for a wrong password, and otherwise a token signed
   over the stored row's id and role that expires seven days after `now`.
   Login never changes the tables, so it returns only the reply.
   */
  function Login(db: Db, svc: Services, body: LoginBody, now: int): (r: Reply<LoginView>)
    ensures !LoginValid(body, svc.isEmail) ==> r == Err(BAD_REQUEST, VALIDATION_FAILED)
    ensures LoginValid(body, svc.isEmail) && FindUserByEmail(db.users, body.email.text).None? ==>
      r == Err(UNAUTHORIZED, BAD_CREDENTIALS)
    ensures LoginValid(body, svc.isEmail) && FindUserByEmail(db.users, body.email.text).Some? ==>
      (!svc.verify(body.password.text, FindUserByEmail(db.users, body.email.text).value.passwordHash) ==>
        r == Err(UNAUTHORIZED, BAD_CREDENTIALS))
    ensures r.Ok? <==>
      && LoginValid(body, svc.isEmail)
      && FindUserByEmail(db.users, body.email.text).Some?
      && svc.verify(body.password.text, FindUserByEmail(db.users, body.email.text).value.passwordHash)
    ensures r.Ok? ==>
      var u := FindUserByEmail(db.users, body.email.text).value;
      && r.status == OK
      && r.value == LoginView(svc.sign(Claims(u.id, u.role, now, now + TOKEN_LIFETIME)), u.id, u.name, u.email, u.role)
  {
    if !LoginValid(body, svc.isEmail) then Err(BAD_REQUEST, VALIDATION_FAILED)
    else match FindUserByEmail(db.users, body.email.text)
      case None => Err(UNAUTHORIZED, BAD_CREDENTIALS)
      case Some(u) =>
        if !svc.verify(body.password.text, u.passwordHash) then Err(UNAUTHORIZED, BAD_CREDENTIALS)
        else Ok(OK, LoginView(svc.sign(Claims(u.id, u.role, now, now + TOKEN_LIFETIME)), u.id, u.name, u.email, u.role))
  }

  /**
   A user who has just signed up can log in with the same email and
   password, and the token carries the new id and the role `normal`,
   provided bcrypt verifies a digest against its own plaintext.
   */
  lemma SignupThenLogin(db: Db, svc: Services, body: SignupBody, salt: nat, now: int)
    requires HashVerifies(svc)
    requires Signup(db, svc, body, salt).reply.Ok?
    ensures var s := Signup(db, svc, body, salt);
      var id := s.reply.value.id;
      Login(s.db, svc, LoginBody(body.email, body.password), now) ==
        Ok(OK, LoginView(svc.sign(Claims(id, Normal, now, now + TOKEN_LIFETIME)), id, body.name.text, body.email.text, Normal))
  {
    var s := Signup(db, svc, body, salt);
    var u := s.db.users[|db.users|];
    assert s.db.users == db.users + [u];
    FindAppendedByEmail(db.users, u);
    assert svc.verify(body.password.text, u.passwordHash);
  }

  /** The update-password body. */
  datatype PasswordChange = PasswordChange(oldPassword: Field, newPassword: Field)

  /**
   POST /api/auth/update-password, for the user the access gate resolved.
   The guards run in the source's order: both fields present (400), the user
   still exists (404), the old password verifies (401), the new password is
   strong (400). Only when all pass is the stored digest replaced, by a fresh
   digest of the new password; every failure leaves the tables untouched.
   */
  function UpdatePassword(db: Db, svc: Services, callerId: Id, body: PasswordChange, salt: nat): (s: Step<()>)
    ensures !Truthy(body.oldPassword) || !Truthy(body.newPassword) ==> s == Step(Err(BAD_REQUEST, FIELDS_REQUIRED), db)
    ensures Truthy(body.oldPassword) && Truthy(body.newPassword) && FindUser(db.users, callerId).None? ==>
      s == Step(Err(NOT_FOUND, USER_NOT_FOUND), db)
    ensures Truthy(body.oldPassword) && Truthy(body.newPassword) && FindUser(db.users, callerId).Some? ==>
      (!svc.verify(body.oldPassword.text, FindUser(db.users, callerId).value.passwordHash) ==>
        s == Step(Err(UNAUTHORIZED, OLD_PASSWORD_WRONG), db))
    ensures Truthy(body.oldPassword) && Truthy(body.newPassword) && FindUser(db.users, callerId).Some? ==>
      svc.verify(body.oldPassword.text, FindUser(db.users, callerId).value.passwordHash) ==>
      !UpdatePattern(body.newPassword.text) ==> s == Step(Err(BAD_REQUEST, WEAK_PASSWORD), db)
    ensures s.reply.Ok? <==>
      && Truthy(body.oldPassword) && Truthy(body.newPassword)
      && FindUser(db.users, callerId).Some?
      && svc.verify(body.oldPassword.text, FindUser(db.users, callerId).value.passwordHash)
      && UpdatePattern(body.newPassword.text)
    ensures s.reply.Err? ==> s.db == db
    ensures s.reply.Ok? ==>
      && s.reply.status == OK
      && s.db.stores == db.stores && s.db.ratings == db.ratings
      && |s.db.users| == |db.users|
      && (forall i :: 0 <= i < |db.users| && db.users[i].id != callerId ==> s.db.users[i] == db.users[i])
      && FindUser(s.db.users, callerId) ==
           Some(FindUser(db.users, callerId).value.(passwordHash := svc.hash(body.newPassword.text, salt)))
    ensures Valid(db) ==> Valid(s.db)
  {
    if !Truthy(body.oldPassword) || !Truthy(body.newPassword) then Step(Err(BAD_REQUEST, FIELDS_REQUIRED), db)
    else match FirstIndex(db.users, UserHasId(callerId))
      case None => Step(Err(NOT_FOUND, USER_NOT_FOUND), db)
      case Some(i) =>
        var u := db.users[i];
        if !svc.verify(body.oldPassword.text, u.passwordHash) then Step(Err(UNAUTHORIZED, OLD_PASSWORD_WRONG), db)
        else if !UpdatePattern(body.newPassword.text) then Step(Err(BAD_REQUEST, WEAK_PASSWORD), db)
        else
          var h := svc.hash(body.newPassword.text, salt);
          assert Valid(db) ==> Valid(db.(users := db.users[i := u.(passwordHash := h)])) by {
            if Valid(db) { RehashKeepsValid(db, i, h); }
          }
          FirstIndexUpdate(db.users, i, u.(passwordHash := h), UserHasId(callerId));
          Step(Ok(OK, ()), db.(users := db.users[i := u.(passwordHash := h)]))
  }
}

=== FILE: averages.dfy ===
/**
 Average ratings. The source computes them in two ways: the rating
 controller asks the database for `AVG(rating)` over the rows with a given
 store id, and the admin controller loads `store.Ratings` and divides a
 `reduce` sum by the array length. Both are modelled as an exact mean, a
 (sum, count) pair, with no value at all when a store has no ratings; the
 decimal rendering of either is not part of the model.
 */
module Averages {
  import opened Common
  import opened Models

  /** An exact mean: `sum / count`, with `count > 0`. */
  datatype Mean = Mean(sum: int, count: nat)

  /** The mean as a number. */
  function MeanValue(m: Mean): real
    requires m.count > 0
  {
    m.sum as real / m.count as real
  }

  // ---------------------------------------------------------------------
  // SQL path: SELECT AVG(rating) FROM ratings WHERE ratings.store_id = ?
  // ---------------------------------------------------------------------

  /** `SUM(rating)` over the rows with that store id. */
  function SqlSum(ratings: seq<Rating>, storeId: Id): int {
    if |ratings| == 0 then 0
    else (if ratings[0].storeId == storeId then ratings[0].value else 0) + SqlSum(ratings[1..], storeId)
  }

  /** `COUNT(rating)` over the rows with that store id. */
  function SqlCount(ratings: seq<Rating>, storeId: Id): nat {
    Count(ratings, (x: Rating) => x.storeId == storeId)
  }

  /** `AVG(rating)`: NULL over no rows, otherwise the mean of the matching rows. */
  function SqlAverage(ratings: seq<Rating>, storeId: Id): (r: Option<Mean>)
    ensures r.None? <==> forall i :: 0 <= i < |ratings| ==> ratings[i].storeId != storeId
    ensures r.Some? ==> r.value.count > 0
    ensures r.Some? ==> r.value.sum == Total(RatingsOf(ratings, storeId)) && r.value.count == |RatingsOf(ratings, storeId)|
  {
    CountZeroIffNone(ratings, (x: Rating) => x.storeId == storeId);
    SqlSumIsTotalOfRatingsOf(ratings, storeId);
    var n := SqlCount(ratings, storeId);
    if n == 0 then None else Some(Mean(SqlSum(ratings, storeId), n))
  }

  // ---------------------------------------------------------------------
  // In-memory path: ratings.reduce((sum, r) => sum + r.rating, 0) / ratings.length
  // ---------------------------------------------------------------------

  /** `Array.prototype.reduce` with `(acc, r) => acc + r.rating`, left to right from `acc`. */
  function ReduceSum(rs: seq<Rating>, acc: int): int {
    if |rs| == 0 then acc else ReduceSum(rs[1..], acc + rs[0].value)
  }

  /** `length > 0 ? reduce(...) / length : null` over an included `Ratings` array. */
  function ReduceAverage(rs: seq<Rating>): (r: Option<Mean>)
    ensures r.None? <==> |rs| == 0
    ensures r.Some? ==> r.value.count == |rs|
    ensures r.Some? ==> r.value.sum == Total(rs)
  {
    ReduceSumIsTotal(rs, 0);
    if |rs| > 0 then Some(Mean(ReduceSum(rs, 0), |rs|)) else None
  }

  /** The plain sum of the values. */
  function Total(rs: seq<Rating>): int {
    if |rs| == 0 then 0 else rs[0].value + Total(rs[1..])
  }

  lemma {:induction false} ReduceSumIsTotal(rs: seq<Rating>, acc: int)
    ensures ReduceSum(rs, acc) == acc + Total(rs)
  {
    if |rs| > 0 {
      ReduceSumIsTotal(rs[1..], acc + rs[0].value);
    }
  }

  lemma {:induction false} SqlSumIsTotalOfRatingsOf(ratings: seq<Rating>, storeId: Id)
    ensures SqlSum(ratings, storeId) == Total(RatingsOf(ratings, storeId))
    ensures SqlCount(ratings, storeId) == |RatingsOf(ratings, storeId)|
  {
    if |ratings| > 0 {
      SqlSumIsTotalOfRatingsOf(ratings[1..], storeId);
      assert RatingsOf(ratings, storeId) == Filter(ratings, (x: Rating) => x.storeId == storeId);
      assert RatingsOf(ratings[1..], storeId) == Filter(ratings[1..], (x: Rating) => x.storeId == storeId);
    }
  }

  /**
   The two aggregation paths agree: the database's `AVG` over the ratings
   table and the in-memory reduce over `store.Ratings` give the same mean,
   and both are absent exactly when the store has no ratings.
   */
  lemma SqlAndReduceAgree(ratings: seq<Rating>, storeId: Id)
    ensures SqlAverage(ratings, storeId) == ReduceAverage(RatingsOf(ratings, storeId))
  {
    SqlSumIsTotalOfRatingsOf(ratings, storeId);
    ReduceSumIsTotal(RatingsOf(ratings, storeId), 0);
  }

  lemma {:induction false} TotalBounds(rs: seq<Rating>)
    requires forall i :: 0 <= i < |rs| ==> RatingValueOk(rs[i].value)
    ensures RATING_MIN * |rs| <= Total(rs) <= RATING_MAX * |rs|
  {
    if |rs| > 0 {
      TotalBounds(rs[1..]);
    }
  }

  /** The mean of ratings that are each in 1..5 is itself in [1, 5]. */
  lemma MeanInRange(rs: seq<Rating>)
    requires forall i :: 0 <= i < |rs| ==> RatingValueOk(rs[i].value)
    ensures ReduceAverage(rs).Some? ==> 1.0 <= MeanValue(ReduceAverage(rs).value) <= 5.0
  {
    if |rs| > 0 {
      TotalBounds(rs);
      ReduceSumIsTotal(rs, 0);
      var m := ReduceAverage(rs).value;
      QuotientBounds(m.sum, m.count);
    }
  }

  /** A sum between `count` and `5 * count` divides down into [1, 5]. */
  lemma QuotientBounds(sum: int, count: nat)
    requires count > 0 && RATING_MIN * count <= sum <= RATING_MAX * count
    ensures 1.0 <= sum as real / count as real <= 5.0
  {
    var c := count as real;
    var q := sum as real / c;
    assert (q - 1.0) * c == sum as real - c;
    assert (5.0 - q) * c == 5.0 * c - sum as real;
    ProductSign(q - 1.0, c);
    ProductSign(5.0 - q, c);
  }

  /** A product with a positive factor is non-negative only if the other factor is. */
  lemma ProductSign(x: real, c: real)
    requires c > 0.0 && x * c >= 0.0
    ensures x >= 0.0
  {
    assert x < 0.0 ==> x * c < 0.0;
  }

  /** A store rated 4, 5 and 3 averages exactly 4; a store with no ratings has no average at all. */
  lemma ExampleAverages()
    ensures MeanValue(ReduceAverage([Rating(1, 1, 7, 4), Rating(2, 2, 7, 5), Rating(3, 3, 7, 3)]).value) == 4.0
    ensures ReduceAverage([]) == None
  {
    var rs := [Rating(1, 1, 7, 4), Rating(2, 2, 7, 5), Rating(3, 3, 7, 3)];
    assert ReduceSum(rs, 0) == 12 by {
      assert rs[1..] == [Rating(2, 2, 7, 5), Rating(3, 3, 7, 3)];
      assert rs[1..][1..] == [Rating(3, 3, 7, 3)];
    }
  }
}

=== FILE: client_routes.dfy ===
/**
 The browser-side route table: which page each path renders for the
 `token` and `role` kept in `localStorage`, the `privateRoute` wrapper, and
 the `/dashboard` redirect. React Router ranks routes by specificity, so
 the catch-all `*` only answers paths no other route names, whatever its
 position in the table. A route's pattern is matched case-insensitively
 and with any number of trailing slashes (`RoutePath`).
 */
module ClientRoutes {
  import opened Common
  import opened Models

  datatype Page =
    | LoginPage | SignupPage
    | AdminDashboardPage | AdminUsersPage | AdminStoresPage
    | OwnerDashboardPage | StoresPage | ChangePasswordPage

  /** What a path shows: a page, or `<Navigate to=... replace />`. */
  datatype Screen = Render(page: Page) | Redirect(to: string)

  const HOME: string := "/"
  const ADMIN_HOME: string := "/admin/dashboard"
  const OWNER_HOME: string := "/owner/dashboard"
  const STORES_HOME: string := "/stores"

  /** `localStorage.getItem("token")` is truthy: present and non-empty. */
  predicate HasToken(token: Option<string>) {
    token.Some? && token.value != ""
  }

  /** `token && allowedRoles.includes(role) ? <Component /> : <Navigate to="/" />`. */
  function PrivateRoute(page: Page, allowed: seq<string>, token: Option<string>, role: Option<string>): (s: Screen)
    ensures s == Render(page) <==> HasToken(token) && role.Some? && role.value in allowed
    ensures s != Render(page) ==> s == Redirect(HOME)
  {
    if HasToken(token) && role.Some? && role.value in allowed then Render(page) else Redirect(HOME)
  }

  /** The smart redirect of `/dashboard`: each role to its home, any other stored role to `/stores`. */
  function Dashboard(token: Option<string>, role: Option<string>): (s: Screen)
    ensures !HasToken(token) ==> s == Redirect(HOME)
    ensures HasToken(token) && role == Some("admin") ==> s == Redirect(ADMIN_HOME)
    ensures HasToken(token) && role == Some("store_owner") ==> s == Redirect(OWNER_HOME)
    ensures HasToken(token) && role != Some("admin") && role != Some("store_owner") ==> s == Redirect(STORES_HOME)
  {
    if !HasToken(token) then Redirect(HOME)
    else if role == Some("admin") then Redirect(ADMIN_HOME)
    else if role == Some("store_owner") then Redirect(OWNER_HOME)
    else Redirect(STORES_HOME)
  }

  /** Drops the trailing slashes of a path, keeping a lone leading one: `/stores//` is `/stores`, `//` is `/`. */
  function TrimSlashes(path: string): (r: string)
    ensures |r| <= |path| && r == path[..|r|]
    ensures forall i :: |r| <= i < |path| ==> path[i] == '/'
    ensures |r| <= 1 || r[|r| - 1] != '/'
    ensures |path| >= 1 ==> |r| >= 1
    decreases |path|
  {
    if |path| > 1 && path[|path| - 1] == '/' then TrimSlashes(path[..|path| - 1]) else path
  }

  /**
   The form in which a location is compared with the route patterns:
   React Router compiles a pattern to a regular expression that allows any
   number of trailing slashes and carries the `i` flag, so trailing slashes
   and the case of ASCII letters do not matter. Every pattern in the table is lower-case
   and ends without a slash.
   */
  function RoutePath(path: string): (p: string)
    ensures |p| <= |path|
  {
    ToLower(TrimSlashes(path))
  }

  /** The route table: the screen for a location, compared in matching form. */
  function Route(path: string, token: Option<string>, role: Option<string>): (s: Screen)
    ensures s.Render? && s.page in {AdminDashboardPage, AdminUsersPage, AdminStoresPage} ==>
      HasToken(token) && role == Some("admin")
    ensures s == Render(OwnerDashboardPage) ==> HasToken(token) && role == Some("store_owner")
    ensures s == Render(StoresPage) ==> HasToken(token) && role == Some("normal")
    ensures s == Render(ChangePasswordPage) <==> RoutePath(path) == "/change-password" && HasToken(token)
    ensures s.Redirect? && RoutePath(path) != "/dashboard" ==> s.to == HOME
  {
    Table(RoutePath(path), token, role)
  }

  /** The `<Routes>` element, over a path already in matching form. */
  function Table(path: string, token: Option<string>, role: Option<string>): (s: Screen)
    ensures s.Render? && s.page in {AdminDashboardPage, AdminUsersPage, AdminStoresPage} ==>
      HasToken(token) && role == Some("admin")
    ensures s == Render(OwnerDashboardPage) ==> HasToken(token) && role == Some("store_owner")
    ensures s == Render(StoresPage) ==> HasToken(token) && role == Some("normal")
    ensures s == Render(ChangePasswordPage) <==> path == "/change-password" && HasToken(token)
    ensures s.Redirect? && path != "/dashboard" ==> s.to == HOME
  {
    if path == "/" then Render(LoginPage)
    else if path == "/signup" then Render(SignupPage)
    else if path == ADMIN_HOME then PrivateRoute(AdminDashboardPage, ["admin"], token, role)
    else if path == "/admin/users" then PrivateRoute(AdminUsersPage, ["admin"], token, role)
    else if path == "/admin/stores" then PrivateRoute(AdminStoresPage, ["admin"], token, role)
    else if path == OWNER_HOME then PrivateRoute(OwnerDashboardPage, ["store_owner"], token, role)
    else if path == STORES_HOME then PrivateRoute(StoresPage, ["normal"], token, role)
    else if path == "/dashboard" then Dashboard(token, role)
    else if path == "/change-password" then (if HasToken(token) then Render(ChangePasswordPage) else Redirect(HOME))
    else Redirect(HOME)
  }

  /** A lower-case path without a trailing slash is already in matching form. */
  lemma NormalPathIsFixed(p: string)
    requires forall i :: 0 <= i < |p| ==> !('A' <= p[i] <= 'Z')
    requires |p| <= 1 || p[|p| - 1] != '/'
    ensures RoutePath(p) == p
  {
    assert TrimSlashes(p) == p;
  }

  /** The paths the table names and redirects to are in matching form. */
  lemma TablePathsAreFixed()
    ensures RoutePath(HOME) == HOME && RoutePath(ADMIN_HOME) == ADMIN_HOME
    ensures RoutePath(OWNER_HOME) == OWNER_HOME && RoutePath(STORES_HOME) == STORES_HOME
  {
    NormalPathIsFixed(HOME);
    NormalPathIsFixed(ADMIN_HOME);
    NormalPathIsFixed(OWNER_HOME);
    NormalPathIsFixed(STORES_HOME);
  }

  /** The page each role lands on. */
  function HomePage(r: Role): Page {
    match r
    case Admin => AdminDashboardPage
    case StoreOwner => OwnerDashboardPage
    case Normal => StoresPage
  }

  /**
   With a token and a stored role that names a role, `/dashboard` sends the
   user to the one page their role may open, which then renders.
   */
  lemma DashboardLandsOnHome(token: Option<string>, r: Role)
    requires HasToken(token)
    ensures Dashboard(token, Some(RoleName(r))).Redirect?
    ensures Route(Dashboard(token, Some(RoleName(r))).to, token, Some(RoleName(r))) == Render(HomePage(r))
  {
    TablePathsAreFixed();
  }

  /**
   Following redirects never loops: every path renders a page after at most
   two redirects, and a stored role that names no role ends on the login
   page by way of `/stores`.
   */
  lemma NoRedirectLoop(path: string, token: Option<string>, role: Option<string>)
    ensures var s1 := Route(path, token, role);
      s1.Redirect? ==>
        var s2 := Route(s1.to, token, role);
        s2.Redirect? ==> Route(s2.to, token, role) == Render(LoginPage)
  {
    TablePathsAreFixed();
    var s1 := Route(path, token, role);
    if s1.Redirect? && s1.to != HOME {
      assert RoutePath(path) == "/dashboard";
    }
  }

  /** A stored role outside the three names reaches no page but login, signup and change-password. */
  lemma UnknownRoleSeesNoRolePage(path: string, token: Option<string>, role: Option<string>)
    requires role !in {Some("admin"), Some("normal"), Some("store_owner")}
    ensures Route(path, token, role).Render? ==> Route(path, token, role).page in {LoginPage, SignupPage, ChangePasswordPage}
  {
  }

  /** Every role-guarded page admits its role: the guard is not stricter than intended. */
  lemma HomePageOpensForItsRole(token: Option<string>, r: Role)
    requires HasToken(token)
    ensures Route(if r == Admin then ADMIN_HOME else if r == StoreOwner then OWNER_HOME else STORES_HOME,
                  token, Some(RoleName(r))) == Render(HomePage(r))
  {
    TablePathsAreFixed();
  }

  /** A trailing slash does not change the screen of a path. */
  lemma RouteIgnoresTrailingSlash(path: string, token: Option<string>, role: Option<string>)
    requires |path| >= 1
    ensures Route(path + "/", token, role) == Route(path, token, role)
  {
    TrimDropsSlash(path);
  }

  lemma TrimDropsSlash(path: string)
    requires |path| >= 1
    ensures RoutePath(path + "/") == RoutePath(path)
  {
    assert (path + "/")[..|path|] == path;
    assert TrimSlashes(path + "/") == TrimSlashes(path);
  }

  /** The case of ASCII letters does not change the screen of a path. */
  lemma RouteIgnoresCase(path: string, token: Option<string>, role: Option<string>)
    ensures Route(ToLower(path), token, role) == Route(path, token, role)
  {
    TrimCommutesWithLower(path);
    var t := TrimSlashes(path);
    assert ToLower(ToLower(t)) == ToLower(t);
  }

  lemma {:induction false} TrimCommutesWithLower(path: string)
    ensures TrimSlashes(ToLower(path)) == ToLower(TrimSlashes(path))
    decreases |path|
  {
    var lp := ToLower(path);
    if |path| > 1 && path[|path| - 1] == '/' {
      var init := path[..|path| - 1];
      assert lp[..|path| - 1] == ToLower(init);
      TrimCommutesWithLower(init);
    }
  }

  /**
   `/dashboard/` sends an admin to the admin dashboard, and `/Stores` opens
   the store list for a normal user.
   */
  lemma SlashAndCaseExamples()
    ensures Route("/dashboard/", Some("t"), Some("admin")) == Redirect(ADMIN_HOME)
    ensures Route("/Stores", Some("t"), Some("normal")) == Render(StoresPage)
  {
    TrimDropsSlash("/dashboard");
    NormalPathIsFixed("/dashboard");
    assert RoutePath("/dashboard/") == "/dashboard";
    assert TrimSlashes("/Stores") == "/Stores";
    assert ToLower("/Stores") == STORES_HOME;
    assert RoutePath("/Stores") == STORES_HOME;
  }
}

=== FILE: client_signup.dfy ===
/**
 The signup page's `handleSubmit`: three checks in order (name length,
 address length, password pattern), the first failure shown and nothing
 sent, otherwise the form posted as the signup body. The form's inputs
 are controlled text fields, so every field is sent as a string, `""`
 when left empty. The page uses the same password expression as the
 server.
 */
module ClientSignup {
  import opened Common
  import opened Passwords
  import opened Validators

  const NAME_LENGTH_ERROR: string := "Name must be 20-60 characters."
  const ADDRESS_LENGTH_ERROR: string := "Address too long (max 400 characters)."
  const PASSWORD_ERROR: string := "Password must be 8-16 chars, include uppercase and a special character."

  datatype SignupForm = SignupForm(name: string, email: string, address: string, password: string)

  /** The outcome of a submit: an error message and no request, or the body posted to /api/auth/signup. */
  datatype Submission = FormError(message: string) | Send(body: SignupBody)

  /** The body `API.post("/auth/signup", form)` sends. */
  function BodyOf(form: SignupForm): (b: SignupBody)
    ensures b.name.Text? && b.email.Text? && b.address.Text? && b.password.Text?
  {
    SignupBody(Text(form.name), Text(form.email), Text(form.address), Text(form.password))
  }

  function SubmitSignup(form: SignupForm): (s: Submission)
    ensures !(NAME_MIN <= |form.name| <= NAME_MAX) ==> s == FormError(NAME_LENGTH_ERROR)
    ensures NAME_MIN <= |form.name| <= NAME_MAX && |form.address| > ADDRESS_LIMIT ==> s == FormError(ADDRESS_LENGTH_ERROR)
    ensures NAME_MIN <= |form.name| <= NAME_MAX && |form.address| <= ADDRESS_LIMIT && !SignupPattern(form.password) ==>
      s == FormError(PASSWORD_ERROR)
    ensures s.Send? <==> NAME_MIN <= |form.name| <= NAME_MAX && |form.address| <= ADDRESS_LIMIT && SignupPattern(form.password)
    ensures s.Send? ==> s.body == BodyOf(form)
  {
    if |form.name| < NAME_MIN || |form.name| > NAME_MAX then FormError(NAME_LENGTH_ERROR)
    else if |form.address| > ADDRESS_LIMIT then FormError(ADDRESS_LENGTH_ERROR)
    else if !SignupPattern(form.password) then FormError(PASSWORD_ERROR)
    else Send(BodyOf(form))
  }

  /**
   The page's checks are the server's schema minus the email: a form the
   page sends with a valid email passes server validation, and a form the
   server would accept is never held back by the page.
   */
  lemma ClientAgreesWithServer(form: SignupForm, isEmail: string -> bool)
    ensures SubmitSignup(form).Send? && form.email != "" && isEmail(form.email) <==>
      SignupValid(BodyOf(form), isEmail)
  {
  }

  /** A password the page lets through is one the update-password rule accepts too. */
  lemma SentPasswordIsUpdateStrong(form: SignupForm)
    requires SubmitSignup(form).Send?
    ensures UpdatePattern(form.password)
  {
    SignupStrongIsUpdateStrong(form.password);
  }
}

=== FILE: client_stores.dfy ===
/**
 The normal user's store page: the store list fetched from
 GET /api/rating/stores, the search box filtering it, the map of chosen
 ratings, and the guard in front of POST /api/rating/submit.

 Lower-casing is ASCII only here; JavaScript's `toLowerCase` also folds
 letters outside ASCII.
 */
module ClientStores {
  import opened Common
  import opened Models
  import opened Averages
  import opened RatingEngine

  const CHOOSE_RATING: string := "Please choose a rating (1-5)"

  /** A store as the page holds it; `userRating` is the response's `user_rating` key, if present. */
  datatype StoreCard = StoreCard(id: Id, name: string, address: Option<string>, average: Option<Mean>, userRating: Option<int>)

  /** A store of the listStores response: its keys carry no `user_rating`. */
  function CardOf(st: StoreAverage): StoreCard {
    StoreCard(st.id, st.name, st.address, st.average, None)
  }

  // ---------------------------------------------------------------------
  // Search
  // ---------------------------------------------------------------------

  predicate NameMatches(s: StoreCard, lower: string) {
    Contains(ToLower(s.name), lower)
  }

  /** The address test of the corrected search: a null address matches nothing. */
  predicate AddressMatches(s: StoreCard, lower: string) {
    s.address.Some? && Contains(ToLower(s.address.value), lower)
  }

  function SearchMatch(lower: string): StoreCard -> bool {
    (s: StoreCard) => NameMatches(s, lower) || AddressMatches(s, lower)
  }

  /** Evaluating the page's filter callback on `s` throws: the name misses and `s.address` is null. */
  predicate Throws(s: StoreCard, lower: string) {
    !NameMatches(s, lower) && s.address.None?
  }

  /**
   `stores.filter(s => s.name.toLowerCase().includes(lower) || s.address.toLowerCase().includes(lower))`
   as written: element by element, with `None` for the TypeError raised by
   `null.toLowerCase()`, which aborts the whole filter. `||` short-circuits,
   so a store whose name matches never has its address read.
   */
  function FilterAsWritten(stores: seq<StoreCard>, lower: string): (r: Option<seq<StoreCard>>)
    ensures r.None? <==> exists i :: 0 <= i < |stores| && Throws(stores[i], lower)
    decreases |stores|
  {
    if |stores| == 0 then Some([])
    else
      var s := stores[0];
      var keep: Option<bool> :=
        if NameMatches(s, lower) then Some(true)
        else if s.address.None? then None
        else Some(Contains(ToLower(s.address.value), lower));
      var rest := FilterAsWritten(stores[1..], lower);
      assert forall i :: 0 < i < |stores| ==> stores[i] == stores[1..][i - 1];
      if keep.None? || rest.None? then None
      else Some(if keep.value then [s] + rest.value else rest.value)
  }

  /** The search effect as written: `search.toLowerCase()`, then the filter. */
  function SearchAsWritten(stores: seq<StoreCard>, query: string): (r: Option<seq<StoreCard>>)
    ensures r.None? <==> exists i :: 0 <= i < |stores| && Throws(stores[i], ToLower(query))
  {
    FilterAsWritten(stores, ToLower(query))
  }

  /**
   The search with a null address treated as not matching: the stores whose
   lower-cased name or address contains the lower-cased query, in the
   fetched order.
   */
  function Search(stores: seq<StoreCard>, query: string): (r: seq<StoreCard>)
    ensures Subsequence(r, stores)
    ensures forall i :: 0 <= i < |r| ==>
      r[i] in stores && (NameMatches(r[i], ToLower(query)) || AddressMatches(r[i], ToLower(query)))
    ensures forall i :: 0 <= i < |stores| && (NameMatches(stores[i], ToLower(query)) || AddressMatches(stores[i], ToLower(query))) ==>
      stores[i] in r
  {
    Filter(stores, SearchMatch(ToLower(query)))
  }

  /** Whenever the page's filter does not throw, it computes the corrected search. */
  lemma {:induction false} AsWrittenAgreesUnlessThrows(stores: seq<StoreCard>, lower: string)
    ensures FilterAsWritten(stores, lower).Some? ==> FilterAsWritten(stores, lower).value == Filter(stores, SearchMatch(lower))
    decreases |stores|
  {
    if |stores| > 0 {
      AsWrittenAgreesUnlessThrows(stores[1..], lower);
    }
  }

  /** Stores whose addresses are all set never make the page's search throw, and it then equals the corrected one. */
  lemma SearchAsWrittenWithAddresses(stores: seq<StoreCard>, query: string)
    requires forall i :: 0 <= i < |stores| ==> stores[i].address.Some?
    ensures SearchAsWritten(stores, query) == Some(Search(stores, query))
  {
    AsWrittenAgreesUnlessThrows(stores, ToLower(query));
  }

  /**
   A store created without an address breaks the page's search: with the
   store named "A" and the query "b", the filter reads `null.toLowerCase()`,
   while the corrected search simply finds nothing.
   */
  lemma NullAddressBreaksSearch()
    ensures SearchAsWritten([StoreCard(1, "A", None, None, None)], "b").None?
    ensures Search([StoreCard(1, "A", None, None, None)], "b") == []
  {
    var s := StoreCard(1, "A", None, None, None);
    assert ToLower("A") == "a" by { assert ToLower("A")[0] == 'a'; }
    assert ToLower("b") == "b" by { assert ToLower("b")[0] == 'b'; }
    assert !Contains("a", "b") by { assert !Contains("", "b"); }
    assert Throws(s, ToLower("b"));
  }

  /** An empty query keeps every store, in order, both as written and corrected. */
  lemma EmptyQueryKeepsAll(stores: seq<StoreCard>)
    ensures Search(stores, "") == stores
    ensures SearchAsWritten(stores, "") == Some(stores)
  {
    assert ToLower("") == "";
    forall i | 0 <= i < |stores|
      ensures NameMatches(stores[i], "")
    {
      ContainsEmpty(ToLower(stores[i].name));
    }
    FilterKeepsAll(stores, SearchMatch(""));
    AsWrittenAgreesUnlessThrows(stores, "");
  }

  // ---------------------------------------------------------------------
  // Chosen ratings
  // ---------------------------------------------------------------------

  /** A JSON number is truthy unless it is 0 (an absent key is `undefined`). */
  predicate TruthyNumber(v: Option<int>) {
    v.Some? && v.value != 0
  }

  /**
   The map `fetchStores` builds: each store with a truthy `user_rating`,
   mapped to it; stores are visited in order, so a later card with the same
   id overwrites an earlier one.
   */
  function InitialRatings(cards: seq<StoreCard>): (m: map<Id, int>)
    ensures forall id :: id in m <==> exists i :: 0 <= i < |cards| && cards[i].id == id && TruthyNumber(cards[i].userRating)
    ensures forall id :: id in m ==> exists i :: 0 <= i < |cards| && cards[i].id == id && cards[i].userRating == Some(m[id])
    decreases |cards|
  {
    if |cards| == 0 then map[]
    else
      var init := cards[..|cards| - 1];
      var last := cards[|cards| - 1];
      var m := InitialRatings(init);
      assert forall i :: 0 <= i < |init| ==> init[i] == cards[i];
      if TruthyNumber(last.userRating) then m[last.id := last.userRating.value] else m
  }

  /** GET /api/rating/stores sends no `user_rating`, so the page starts with no rating chosen for any store. */
  lemma FetchedStoresStartUnrated(db: Db)
    ensures InitialRatings(Project(ListStores(db), (st: StoreAverage) => CardOf(st))) == map[]
  {
    var cards := Project(ListStores(db), (st: StoreAverage) => CardOf(st));
    assert forall i :: 0 <= i < |cards| ==> cards[i].userRating.None?;
  }

  /** The caller's own rating of a store, the value the page expects under `user_rating`. */
  function CallerRating(db: Db, callerId: Id, storeId: Id): (v: Option<int>)
    ensures v.None? <==> forall k :: 0 <= k < |db.ratings| ==> !RatingKey(db.ratings[k], callerId, storeId)
    ensures v.Some? ==> exists k :: 0 <= k < |db.ratings| && RatingKey(db.ratings[k], callerId, storeId) && db.ratings[k].value == v.value
  {
    match FindRating(db.ratings, callerId, storeId)
    case None => None
    case Some(k) => Some(db.ratings[k].value)
  }

  /** The store list with the caller's rating attached as `user_rating`, as the page reads it. */
  function CardsFor(db: Db, callerId: Id): (r: seq<StoreCard>)
    ensures |r| == |db.stores|
    ensures forall i :: 0 <= i < |r| ==>
      && r[i].id == db.stores[i].id && r[i].name == db.stores[i].name && r[i].address == db.stores[i].address
      && r[i].average == SqlAverage(db.ratings, db.stores[i].id)
      && r[i].userRating == CallerRating(db, callerId, db.stores[i].id)
  {
    var list := ListStores(db);
    seq(|list|, i requires 0 <= i < |list| => CardOf(list[i]).(userRating := CallerRating(db, callerId, list[i].id)))
  }

  /** Store ids are distinct. */
  predicate StoreIdsDistinct(stores: seq<Store>) {
    forall i, j :: 0 <= i < j < |stores| ==> stores[i].id != stores[j].id
  }

  /** One store of `CardsFor`: preselected iff rated by the caller, with the caller's value. */
  lemma PreselectedAt(db: Db, callerId: Id, i: nat)
    requires StoreIdsDistinct(db.stores) && RatingsInRange(db.ratings)
    requires i < |db.stores|
    ensures var m := InitialRatings(CardsFor(db, callerId));
      && (db.stores[i].id in m <==> CallerRating(db, callerId, db.stores[i].id).Some?)
      && (db.stores[i].id in m ==> m[db.stores[i].id] == CallerRating(db, callerId, db.stores[i].id).value)
  {
    var cards := CardsFor(db, callerId);
    assert forall a, b :: 0 <= a < b < |cards| ==> cards[a].id != cards[b].id by {
      forall a, b | 0 <= a < b < |cards|
        ensures cards[a].id != cards[b].id
      {
        assert cards[a].id == db.stores[a].id && cards[b].id == db.stores[b].id;
      }
    }
    assert cards[i].userRating == CallerRating(db, callerId, db.stores[i].id);
    InitialRatingAt(cards, i);
  }

  /** With distinct card ids, a card's entry in the map is its own `user_rating`, present iff truthy. */
  lemma InitialRatingAt(cards: seq<StoreCard>, i: nat)
    requires forall a, b :: 0 <= a < b < |cards| ==> cards[a].id != cards[b].id
    requires i < |cards|
    ensures var m := InitialRatings(cards);
      && (cards[i].id in m <==> TruthyNumber(cards[i].userRating))
      && (cards[i].id in m ==> m[cards[i].id] == cards[i].userRating.value)
  {
    var m := InitialRatings(cards);
    var id := cards[i].id;
    if id in m {
      var j :| 0 <= j < |cards| && cards[j].id == id && cards[j].userRating == Some(m[id]);
      assert j == i;
    }
  }

  /**
   Served the list with `user_rating`, the page preselects exactly the
   stores the caller has rated, each with the caller's value, and every
   preselected value is one the select offers. Both requirements are part
   of `Valid`.
   */
  lemma CallerRatingsPreselected(db: Db, callerId: Id)
    requires StoreIdsDistinct(db.stores) && RatingsInRange(db.ratings)
    ensures var m := InitialRatings(CardsFor(db, callerId));
      forall i :: 0 <= i < |db.stores| ==>
        && (db.stores[i].id in m <==> CallerRating(db, callerId, db.stores[i].id).Some?)
        && (db.stores[i].id in m ==> m[db.stores[i].id] == CallerRating(db, callerId, db.stores[i].id).value)
    ensures Selectable(InitialRatings(CardsFor(db, callerId)))
  {
    var cards := CardsFor(db, callerId);
    assert forall i :: 0 <= i < |cards| ==> cards[i].userRating.None? || RatingValueOk(cards[i].userRating.value);
    InitialRatingsSelectable(cards);
    forall i | 0 <= i < |db.stores|
      ensures var m := InitialRatings(cards);
        && (db.stores[i].id in m <==> CallerRating(db, callerId, db.stores[i].id).Some?)
        && (db.stores[i].id in m ==> m[db.stores[i].id] == CallerRating(db, callerId, db.stores[i].id).value)
    {
      PreselectedAt(db, callerId, i);
    }
  }

  /** The `<option>` values of the rating select. */
  const RATING_OPTIONS: seq<int> := [1, 2, 3, 4, 5]

  /** The options offered are exactly the values the ratings table accepts. */
  lemma RatingOptionsAreValidValues()
    ensures forall v: int :: v in RATING_OPTIONS <==> RatingValueOk(v)
  {
    forall v: int | RatingValueOk(v)
      ensures v in RATING_OPTIONS
    {
      assert RATING_OPTIONS[v - 1] == v;
    }
  }

  /**
   The select's `onChange`: `+e.target.value` stores 0 for the placeholder
   option (`None`) and the chosen number otherwise, for that store only.
   */
  function Choose(m: map<Id, int>, storeId: Id, picked: Option<int>): (m': map<Id, int>)
    requires picked.None? || picked.value in RATING_OPTIONS
    ensures storeId in m' && (m'[storeId] == 0 <==> picked.None?)
    ensures picked.Some? ==> m'[storeId] == picked.value
    ensures forall id :: id != storeId ==> (id in m' <==> id in m) && (id in m ==> m'[id] == m[id])
  {
    m[storeId := if picked.None? then 0 else picked.value]
  }

  /** Every value in the map is 0 (nothing chosen) or an offered option. */
  predicate Selectable(m: map<Id, int>) {
    forall id :: id in m ==> m[id] == 0 || m[id] in RATING_OPTIONS
  }

  /** What clicking the submit button does. */
  datatype RatingAction = Alert(message: string) | Post(storeId: Id, value: int)

  /** `handleRating`: with no truthy choice for the store, alert and post nothing; otherwise post the choice. */
  function HandleRating(m: map<Id, int>, storeId: Id): (a: RatingAction)
    ensures a.Post? <==> storeId in m && m[storeId] != 0
    ensures a.Alert? ==> a == Alert(CHOOSE_RATING)
    ensures a.Post? ==> a.storeId == storeId && a.value == m[storeId]
  {
    if storeId !in m || m[storeId] == 0 then Alert(CHOOSE_RATING) else Post(storeId, m[storeId])
  }

  /** Choosing through the select keeps the map selectable. */
  lemma ChooseKeepsSelectable(m: map<Id, int>, storeId: Id, picked: Option<int>)
    requires Selectable(m)
    requires picked.None? || picked.value in RATING_OPTIONS
    ensures Selectable(Choose(m, storeId, picked))
  {
  }

  /** A map built from `user_rating` values the ratings table holds is selectable. */
  lemma InitialRatingsSelectable(cards: seq<StoreCard>)
    requires forall i :: 0 <= i < |cards| ==> cards[i].userRating.None? || RatingValueOk(cards[i].userRating.value)
    ensures Selectable(InitialRatings(cards))
  {
    var m := InitialRatings(cards);
    RatingOptionsAreValidValues();
    forall id | id in m
      ensures m[id] in RATING_OPTIONS
    {
      var i :| 0 <= i < |cards| && cards[i].id == id && cards[i].userRating == Some(m[id]);
    }
  }

  /**
   From a selectable map the page only ever posts a value the server's range
   check accepts: a submit it sends is never refused with 400.
   */
  lemma PostedRatingPassesRangeCheck(m: map<Id, int>, storeId: Id, db: Db, callerId: Id)
    requires Selectable(m)
    requires HandleRating(m, storeId).Post?
    ensures RatingValueOk(HandleRating(m, storeId).value)
    ensures Submit(db, callerId, Some(storeId), Some(HandleRating(m, storeId).value)).reply.Err? ==>
      Submit(db, callerId, Some(storeId), Some(HandleRating(m, storeId).value)).reply.status == SERVER_ERROR
  {
    RatingOptionsAreValidValues();
  }
}

=== FILE: common.dfy ===
/**
 Shared vocabulary of the model: optional values, request-body fields with
 JavaScript truthiness, HTTP replies, and the few sequence and string
 operations the handlers are built from (first match, filter, subsequence,
 substring search, ASCII lower-casing, sorting by id).
 */
module Common {

  datatype Option<+T> = None | Some(value: T)

  /** A field of a JSON request body: absent, an explicit `null`, or a string. */
  datatype Field = Missing | Null | Text(text: string)

  /** JavaScript truthiness of a body field: only a non-empty string is truthy. */
  predicate Truthy(f: Field) {
    f.Text? && f.text != ""
  }

  /** The field as a nullable column value: `undefined` and `null` both store NULL. */
  function Nullable(f: Field): (r: Option<string>)
    ensures r.Some? <==> f.Text?
    ensures f.Text? ==> r.value == f.text
  {
    match f
    case Text(s) => Some(s)
    case _ => None
  }

  /** An HTTP reply: a success status with a JSON value, or an error status with its message. */
  datatype Reply<+T> = Ok(status: int, value: T) | Err(status: int, message: string)

  const OK: int := 200
  const CREATED: int := 201
  const BAD_REQUEST: int := 400
  const UNAUTHORIZED: int := 401
  const FORBIDDEN: int := 403
  const NOT_FOUND: int := 404
  const SERVER_ERROR: int := 500

  /** The index of the first element satisfying `p`, if any. */
  function FirstIndex<T>(s: seq<T>, p: T -> bool): (r: Option<nat>)
    ensures r.Some? ==> r.value < |s| && p(s[r.value])
    ensures r.Some? ==> forall j :: 0 <= j < r.value ==> !p(s[j])
    ensures r.None? <==> forall j :: 0 <= j < |s| ==> !p(s[j])
  {
    if |s| == 0 then None
    else if p(s[0]) then Some(0)
    else match FirstIndex(s[1..], p)
      case None => None
      case Some(k) => Some(k + 1)
  }

  /** Appending elements does not move a first match that already exists. */
  lemma FirstIndexAppend<T>(s: seq<T>, t: seq<T>, p: T -> bool)
    requires FirstIndex(s, p).Some?
    ensures FirstIndex(s + t, p) == FirstIndex(s, p)
  {
    var j := FirstIndex(s, p).value;
    assert p((s + t)[j]);
  }

  /** Replacing an element by one that `p` judges alike leaves the first match where it was. */
  lemma FirstIndexUpdate<T>(s: seq<T>, i: nat, x: T, p: T -> bool)
    requires i < |s| && p(x) == p(s[i])
    ensures FirstIndex(s[i := x], p) == FirstIndex(s, p)
  {
    assert forall j :: 0 <= j < |s| ==> p(s[i := x][j]) == p(s[j]);
  }

  /** `a` occurs in `b` in order, possibly with gaps. */
  predicate Subsequence<T(==)>(a: seq<T>, b: seq<T>)
    decreases |b|
  {
    |a| == 0 || (|b| > 0 && if a[0] == b[0] then Subsequence(a[1..], b[1..]) else Subsequence(a, b[1..]))
  }

  /** `Array.prototype.filter`: the elements satisfying `p`, in their original order. */
  function Filter<T(==)>(s: seq<T>, p: T -> bool): (r: seq<T>)
    ensures |r| <= |s|
    ensures forall i :: 0 <= i < |r| ==> r[i] in s && p(r[i])
    ensures forall i :: 0 <= i < |s| && p(s[i]) ==> s[i] in r
    ensures Subsequence(r, s)
  {
    if |s| == 0 then []
    else if p(s[0]) then [s[0]] + Filter(s[1..], p)
    else Filter(s[1..], p)
  }

  /** Every element of `s` satisfying `p` survives the filter. */
  lemma {:induction false} FilterKeepsAll<T>(s: seq<T>, p: T -> bool)
    ensures (forall i :: 0 <= i < |s| ==> p(s[i])) ==> Filter(s, p) == s
  {
    if |s| > 0 {
      FilterKeepsAll(s[1..], p);
      assert forall i :: 0 < i < |s| ==> s[1..][i - 1] == s[i];
    }
  }

  /** The number of elements satisfying `p`. */
  function Count<T>(s: seq<T>, p: T -> bool): nat
  {
    if |s| == 0 then 0 else (if p(s[0]) then 1 else 0) + Count(s[1..], p)
  }

  /** The first element the filter keeps is the first match, and it keeps none exactly when nothing matches. */
  lemma {:induction false} FilterHeadIsFirstMatch<T>(s: seq<T>, p: T -> bool)
    ensures |Filter(s, p)| == 0 <==> FirstIndex(s, p).None?
    ensures FirstIndex(s, p).Some? ==> |Filter(s, p)| > 0 && Filter(s, p)[0] == s[FirstIndex(s, p).value]
  {
    if |s| > 0 {
      FilterHeadIsFirstMatch(s[1..], p);
    }
  }

  /** The filter keeps exactly as many elements as satisfy the predicate. */
  lemma {:induction false} FilterLengthIsCount<T>(s: seq<T>, p: T -> bool)
    ensures |Filter(s, p)| == Count(s, p)
  {
    if |s| > 0 {
      FilterLengthIsCount(s[1..], p);
    }
  }

  lemma {:induction false} CountZeroIffNone<T>(s: seq<T>, p: T -> bool)
    ensures Count(s, p) == 0 <==> forall j :: 0 <= j < |s| ==> !p(s[j])
  {
    if |s| > 0 {
      CountZeroIffNone(s[1..], p);
      assert forall j :: 0 < j < |s| ==> s[j] == s[1..][j - 1];
    }
  }

  lemma {:induction false} CountUpdateSameTruth<T>(s: seq<T>, i: nat, x: T, p: T -> bool)
    requires i < |s| && p(x) == p(s[i])
    ensures Count(s[i := x], p) == Count(s, p)
  {
    if i > 0 {
      assert s[i := x][1..] == s[1..][i - 1 := x];
      CountUpdateSameTruth(s[1..], i - 1, x, p);
    } else {
      assert s[i := x][1..] == s[1..];
    }
  }

  lemma {:induction false} CountAppend<T>(s: seq<T>, x: T, p: T -> bool)
    ensures Count(s + [x], p) == Count(s, p) + (if p(x) then 1 else 0)
  {
    if |s| > 0 {
      assert (s + [x])[1..] == s[1..] + [x];
      CountAppend(s[1..], x, p);
    }
  }

  /** `p` is the first `|p|` characters of `s`. */
  predicate StartsWith(s: string, p: string) {
    |p| <= |s| && s[..|p|] == p
  }

  /** `String.prototype.includes`: `needle` occurs contiguously somewhere in `hay`. */
  predicate Contains(hay: string, needle: string)
    decreases |hay|
  {
    StartsWith(hay, needle) || (|hay| > 0 && Contains(hay[1..], needle))
  }

  /** `"".includes` is true of every string, including the empty one. */
  lemma ContainsEmpty(s: string)
    ensures Contains(s, "")
  {
    assert StartsWith(s, "");
  }

  /** ASCII lower-casing of one character. */
  function LowerChar(c: char): (r: char)
    ensures 'A' <= c <= 'Z' ==> 'a' <= r <= 'z' && r as int == c as int + 32
    ensures !('A' <= c <= 'Z') ==> r == c
  {
    if 'A' <= c <= 'Z' then (c as int + 32) as char else c
  }

  /** `String.prototype.toLowerCase`, restricted to the ASCII letters. */
  function ToLower(s: string): (r: string)
    ensures |r| == |s|
    ensures forall i :: 0 <= i < |s| ==> r[i] == LowerChar(s[i])
  {
    seq(|s|, i requires 0 <= i < |s| => LowerChar(s[i]))
  }

  /** `s` is ordered by non-increasing `key`, as `ORDER BY key DESC` returns it. */
  predicate DescendingBy<T>(s: seq<T>, key: T -> nat) {
    forall i :: 0 < i < |s| ==> key(s[i - 1]) >= key(s[i])
  }

  /** Inserts `x` into a `key`-descending sequence, before the first element with a key not above its own. */
  function InsertDesc<T>(x: T, s: seq<T>, key: T -> nat): (r: seq<T>)
    requires DescendingBy(s, key)
    ensures |r| == |s| + 1
    ensures DescendingBy(r, key)
    ensures multiset(r) == multiset(s) + multiset{x}
    ensures r[0] == x || (|s| > 0 && r[0] == s[0])
  {
    if |s| == 0 || key(x) >= key(s[0]) then [x] + s
    else
      var rest := InsertDesc(x, s[1..], key);
      assert s == [s[0]] + s[1..];
      [s[0]] + rest
  }

  /** `ORDER BY key DESC`: a permutation of `s` in non-increasing `key` order. */
  function SortDesc<T>(s: seq<T>, key: T -> nat): (r: seq<T>)
    ensures |r| == |s|
    ensures DescendingBy(r, key)
    ensures multiset(r) == multiset(s)
  {
    if |s| == 0 then []
    else
      assert s == [s[0]] + s[1..];
      InsertDesc(s[0], SortDesc(s[1..], key), key)
  }

  /** `findAll({ where: p, order: [[key, "DESC"]] })`: the rows satisfying `p`, each once per occurrence, in descending `key` order. */
  function SelectDesc<T(==)>(s: seq<T>, p: T -> bool, key: T -> nat): (r: seq<T>)
    ensures forall i :: 0 <= i < |r| ==> r[i] in s && p(r[i])
    ensures forall i :: 0 <= i < |s| && p(s[i]) ==> s[i] in r
    ensures DescendingBy(r, key)
    ensures multiset(r) == multiset(Filter(s, p))
    ensures |r| == Count(s, p)
  {
    var m := Filter(s, p);
    var r := SortDesc(m, key);
    FilterLengthIsCount(s, p);
    assert forall i :: 0 <= i < |r| ==> r[i] in multiset(m);
    assert forall i :: 0 <= i < |s| && p(s[i]) ==> s[i] in multiset(r) by {
      forall i | 0 <= i < |s| && p(s[i])
        ensures s[i] in multiset(r)
      {
        assert s[i] in m;
      }
    }
    r
  }

  /** `rows.map(f)`. */
  function Project<T, U>(s: seq<T>, f: T -> U): (r: seq<U>)
    ensures |r| == |s|
    ensures forall i :: 0 <= i < |s| ==> r[i] == f(s[i])
  {
    seq(|s|, i requires 0 <= i < |s| => f(s[i]))
  }

  /** `SelectDesc` with each row projected through `view`; `viewKey` reads on a view the key of its row. */
  function SelectDescAs<T(==,!new), U(==)>(s: seq<T>, p: T -> bool, key: T -> nat, view: T -> U, viewKey: U -> nat): (r: seq<U>)
    requires forall x: T :: viewKey(view(x)) == key(x)
    ensures forall i :: 0 <= i < |r| ==> exists k :: 0 <= k < |s| && p(s[k]) && r[i] == view(s[k])
    ensures forall k :: 0 <= k < |s| && p(s[k]) ==> view(s[k]) in r
    ensures |r| == Count(s, p)
    ensures DescendingBy(r, viewKey)
  {
    var rows := SelectDesc(s, p, key);
    var r := Project(rows, view);
    assert forall i :: 0 < i < |r| ==> viewKey(r[i - 1]) >= viewKey(r[i]) by {
      forall i | 0 < i < |r|
        ensures viewKey(r[i - 1]) >= viewKey(r[i])
      {
        assert key(rows[i - 1]) >= key(rows[i]);
      }
    }
    assert forall i :: 0 <= i < |r| ==> exists k :: 0 <= k < |s| && p(s[k]) && r[i] == view(s[k]) by {
      forall i | 0 <= i < |r|
        ensures exists k :: 0 <= k < |s| && p(s[k]) && r[i] == view(s[k])
      {
        assert rows[i] in s;
        var k :| 0 <= k < |s| && s[k] == rows[i];
      }
    }
    assert forall k :: 0 <= k < |s| && p(s[k]) ==> view(s[k]) in r by {
      forall k | 0 <= k < |s| && p(s[k])
        ensures view(s[k]) in r
      {
        assert s[k] in rows;
        var i :| 0 <= i < |rows| && rows[i] == s[k];
        assert r[i] == view(s[k]);
      }
    }
    r
  }
}

=== FILE: gate.dfy ===
/**
 The access gate every protected route passes through: the `auth`
 middleware (bearer-header parsing, token verification, reloading the user
 by id) followed, on the routes that have one, by `requireRole(r)`.

 The header is read as the bearer scheme of section 2.1 of RFC 6750, except
 that the scheme name is matched case-sensitively as the exact prefix
 `"Bearer "` and the token is the second field of `header.split(" ")`.
 The role middleware is not part of this model; `requireRole(r)` is taken
 to admit exactly the users whose stored role is `r`, and to answer 403
 otherwise.
 */
module Gate {
  import opened Common
  import opened Models
  import opened Services

  const BEARER_PREFIX: string := "Bearer "
  const MISSING_TOKEN: string := "Missing or invalid token"
  const INVALID_USER: string := "Invalid user"
  const BAD_TOKEN: string := "Invalid or expired token"
  const ACCESS_DENIED: string := "Access denied"

  function IsSpace(): char -> bool {
    (c: char) => c == ' '
  }

  /** `s.split(" ")`: the maximal space-free runs between single spaces, empty ones included. */
  function Split(s: string): (r: seq<string>)
    ensures |r| >= 1
    ensures forall i :: 0 <= i < |r| ==> ' ' !in r[i]
    ensures (exists i :: 0 <= i < |s| && s[i] == ' ') ==> |r| >= 2
    decreases |s|
  {
    match FirstIndex(s, IsSpace())
    case None => [s]
    case Some(i) => [s[..i]] + Split(s[i + 1..])
  }

  /** `parts.join(" ")`. */
  function Join(parts: seq<string>): string
    requires |parts| >= 1
  {
    if |parts| == 1 then parts[0] else parts[0] + " " + Join(parts[1..])
  }

  lemma JoinCons(p: string, rest: seq<string>)
    requires |rest| >= 1
    ensures Join([p] + rest) == p + " " + Join(rest)
  {
    assert ([p] + rest)[1..] == rest;
  }

  lemma Reassemble(s: string, i: nat)
    requires i < |s| && s[i] == ' '
    ensures s[..i] + " " + s[i + 1..] == s
  {
    assert s[..i] + [s[i]] + s[i + 1..] == s;
  }

  /** Splitting and joining again gives back the header. */
  lemma {:induction false} JoinSplit(s: string)
    ensures Join(Split(s)) == s
    decreases |s|
  {
    match FirstIndex(s, IsSpace())
    case None =>
    case Some(i) =>
      var rest := Split(s[i + 1..]);
      JoinSplit(s[i + 1..]);
      JoinCons(s[..i], rest);
      Reassemble(s, i);
  }

  /** Joining space-free fields and splitting again gives back the fields. */
  lemma {:induction false} SplitJoin(parts: seq<string>)
    requires |parts| >= 1
    requires forall i :: 0 <= i < |parts| ==> ' ' !in parts[i]
    ensures Split(Join(parts)) == parts
    decreases |parts|
  {
    var s := Join(parts);
    if |parts| == 1 {
      assert forall j :: 0 <= j < |s| ==> !IsSpace()(s[j]);
    } else {
      var p := parts[0];
      assert s == p + " " + Join(parts[1..]);
      assert forall j :: 0 <= j < |p| ==> s[j] == p[j] && !IsSpace()(s[j]);
      assert IsSpace()(s[|p|]);
      assert FirstIndex(s, IsSpace()) == Some(|p|);
      assert s[..|p|] == p;
      assert s[|p| + 1..] == Join(parts[1..]);
      SplitJoin(parts[1..]);
    }
  }

  /** `authHeader.startsWith("Bearer ") ? authHeader.split(" ")[1] : (401)`. */
  function BearerToken(header: Option<string>): (r: Option<string>)
    ensures r.Some? <==> header.Some? && StartsWith(header.value, BEARER_PREFIX)
    ensures r.Some? ==> |Split(header.value)| >= 2 && r.value == Split(header.value)[1]
  {
    if header.None? || !StartsWith(header.value, BEARER_PREFIX) then None
    else
      assert header.value[6] == ' ';
      Some(Split(header.value)[1])
  }

  /** A header built as `"Bearer " + token` yields exactly that token, when the token has no space. */
  lemma BearerRoundTrip(token: string)
    requires ' ' !in token
    ensures BearerToken(Some(BEARER_PREFIX + token)) == Some(token)
  {
    assert BEARER_PREFIX + token == Join(["Bearer", token]);
    SplitJoin(["Bearer", token]);
  }

  /** The gate's decision: the reloaded user, or a rejection. */
  datatype Admission = Admitted(user: User) | Denied(status: int, message: string)

  /**
   The `auth` middleware. `storeFault` stands for `User.findByPk` throwing,
   which the middleware's catch turns into the same 401 as a bad token.
   The admitted user is the row reloaded by the token's id, so its role is
   the stored one, not the token's claim.
   */
  function Authenticate(header: Option<string>, db: Db, svc: Services, now: int, storeFault: bool): (a: Admission)
    ensures BearerToken(header).None? ==> a == Denied(UNAUTHORIZED, MISSING_TOKEN)
    ensures BearerToken(header).Some? && svc.decode(BearerToken(header).value, now).None? ==> a == Denied(UNAUTHORIZED, BAD_TOKEN)
    // A token that decodes: a failing lookup is the bad-token 401, an unknown id its own 401.
    ensures BearerToken(header).Some? && svc.decode(BearerToken(header).value, now).Some? ==>
      storeFault ==> a == Denied(UNAUTHORIZED, BAD_TOKEN)
    ensures BearerToken(header).Some? && svc.decode(BearerToken(header).value, now).Some? ==>
      !storeFault ==> FindUser(db.users, svc.decode(BearerToken(header).value, now).value.id).None? ==>
      a == Denied(UNAUTHORIZED, INVALID_USER)
    ensures a.Denied? ==> a.status == UNAUTHORIZED
    ensures a.Admitted? <==>
      && !storeFault
      && BearerToken(header).Some?
      && svc.decode(BearerToken(header).value, now).Some?
      && FindUser(db.users, svc.decode(BearerToken(header).value, now).value.id).Some?
    ensures a.Admitted? ==> a.user == FindUser(db.users, svc.decode(BearerToken(header).value, now).value.id).value
  {
    match BearerToken(header)
    case None => Denied(UNAUTHORIZED, MISSING_TOKEN)
    case Some(token) =>
      match svc.decode(token, now)
      case None => Denied(UNAUTHORIZED, BAD_TOKEN)
      case Some(claims) =>
        if storeFault then Denied(UNAUTHORIZED, BAD_TOKEN)
        else match FindUser(db.users, claims.id)
          case None => Denied(UNAUTHORIZED, INVALID_USER)
          case Some(u) => Admitted(u)
  }

  /** The protected endpoints. */
  datatype Endpoint =
    | RatingSubmit | RatingStores | RatingStoreDetail
    | AdminDashboard | AdminUsers | AdminUserById | AdminCreateUser
    | AdminStores | AdminStoreById | AdminCreateStore
    | AuthUpdatePassword | StoresMine

  /** The `requireRole` each route mounts after `auth`, if any. */
  function RequiredRole(e: Endpoint): (r: Option<Role>)
    ensures r.None? <==> e == AuthUpdatePassword || e == StoresMine
    ensures r == Some(Normal) <==> e == RatingSubmit || e == RatingStores
    ensures r == Some(StoreOwner) <==> e == RatingStoreDetail
  {
    match e
    case RatingSubmit => Some(Normal)
    case RatingStores => Some(Normal)
    case RatingStoreDetail => Some(StoreOwner)
    case AuthUpdatePassword => None
    case StoresMine => None
    case _ => Some(Admin)
  }

  /** `auth` then, where mounted, `requireRole(r)`: the handler runs only on `Admitted`. */
  function Guard(e: Endpoint, header: Option<string>, db: Db, svc: Services, now: int, storeFault: bool): (a: Admission)
    ensures Authenticate(header, db, svc, now, storeFault).Denied? ==> a == Authenticate(header, db, svc, now, storeFault)
    ensures a.Admitted? <==>
      && Authenticate(header, db, svc, now, storeFault).Admitted?
      && (RequiredRole(e).None? || Authenticate(header, db, svc, now, storeFault).user.role == RequiredRole(e).value)
    ensures a.Admitted? ==> a == Authenticate(header, db, svc, now, storeFault)
    // An authenticated user whose stored role is not the required one gets 403.
    ensures Authenticate(header, db, svc, now, storeFault).Admitted? ==> RequiredRole(e).Some? ==>
      Authenticate(header, db, svc, now, storeFault).user.role != RequiredRole(e).value ==>
      a == Denied(FORBIDDEN, ACCESS_DENIED)
    ensures a.Denied? ==> a.status == UNAUTHORIZED || a == Denied(FORBIDDEN, ACCESS_DENIED)
  {
    match Authenticate(header, db, svc, now, storeFault)
    case Denied(st, msg) => Denied(st, msg)
    case Admitted(u) =>
      if RequiredRole(e).Some? && u.role != RequiredRole(e).value then Denied(FORBIDDEN, ACCESS_DENIED)
      else Admitted(u)
  }

  /** A token that does not verify (bad signature or expired) is refused with 401 on every endpoint. */
  lemma BadTokenRefusedEverywhere(e: Endpoint, token: string, db: Db, svc: Services, now: int, storeFault: bool)
    requires ' ' !in token
    requires svc.decode(token, now).None?
    ensures Guard(e, Some(BEARER_PREFIX + token), db, svc, now, storeFault) == Denied(UNAUTHORIZED, BAD_TOKEN)
  {
    BearerRoundTrip(token);
  }

  /** A user stored as `normal` gets 403 from every admin and store-owner endpoint. */
  lemma NormalUserForbidden(e: Endpoint, header: Option<string>, db: Db, svc: Services, now: int)
    requires Authenticate(header, db, svc, now, false).Admitted?
    requires Authenticate(header, db, svc, now, false).user.role == Normal
    requires RequiredRole(e) == Some(Admin) || RequiredRole(e) == Some(StoreOwner)
    ensures Guard(e, header, db, svc, now, false) == Denied(FORBIDDEN, ACCESS_DENIED)
  {
  }

  /**
   The role claim in the token is never consulted: a token still claiming
   `admin` for a user whose row now says `normal` is refused by the admin
   routes, and two tokens naming the same id admit the same user.
   */
  lemma StoredRoleWins(token: string, db: Db, svc: Services, now: int)
    requires ' ' !in token
    requires svc.decode(token, now).Some? && svc.decode(token, now).value.role == Admin
    requires FindUser(db.users, svc.decode(token, now).value.id).Some?
    requires FindUser(db.users, svc.decode(token, now).value.id).value.role == Normal
    ensures Guard(AdminDashboard, Some(BEARER_PREFIX + token), db, svc, now, false) == Denied(FORBIDDEN, ACCESS_DENIED)
  {
    BearerRoundTrip(token);
  }

  /**
   A token issued by login (seven days' lifetime) opens the gate until it
   expires, and admits the row it was issued for, provided jsonwebtoken's
   tokens decode until expiry and contain no space, and ids are unique.
   */
  lemma IssuedTokenAdmits(db: Db, svc: Services, u: User, issuedAt: int, now: int)
    requires TokensDecode(svc)
    requires forall c: Claims :: ' ' !in svc.sign(c)
    requires Valid(db) && u in db.users
    requires issuedAt <= now < issuedAt + TOKEN_LIFETIME
    ensures Authenticate(Some(BEARER_PREFIX + svc.sign(Claims(u.id, u.role, issuedAt, issuedAt + TOKEN_LIFETIME))),
                         db, svc, now, false) == Admitted(u)
  {
    var c := Claims(u.id, u.role, issuedAt, issuedAt + TOKEN_LIFETIME);
    BearerRoundTrip(svc.sign(c));
    assert svc.decode(svc.sign(c), now) == Some(c);
    var k :| 0 <= k < |db.users| && db.users[k] == u;
    var found := FindUser(db.users, u.id).value;
    var j :| 0 <= j < |db.users| && db.users[j] == found;
    assert j == k;
  }
}

=== FILE: models.dfy ===
/**
 The three tables of the application (users, stores, ratings) with the
 column constraints the Sequelize models declare, the invariants the
 application code is meant to keep, and the lookups and inserts the
 handlers perform on them.
 */
module Models {
  import opened Common

  type Id = nat

  /** The `role` column: an ENUM of three values. */
  datatype Role = Admin | Normal | StoreOwner

  /** The ENUM's string values. */
  function RoleName(r: Role): string {
    match r
    case Admin => "admin"
    case Normal => "normal"
    case StoreOwner => "store_owner"
  }

  /** `["admin", "normal", "store_owner"].includes(role)`, returning the role it names. */
  function ParseRole(f: Field): (r: Option<Role>)
    ensures r.Some? <==> f.Text? && f.text in ["admin", "normal", "store_owner"]
    ensures r.Some? ==> f == Text(RoleName(r.value))
  {
    if f == Text("admin") then Some(Admin)
    else if f == Text("normal") then Some(Normal)
    else if f == Text("store_owner") then Some(StoreOwner)
    else None
  }

  /** Role names and parsing are inverse to each other. */
  lemma RoleNameRoundTrip(r: Role)
    ensures ParseRole(Text(RoleName(r))) == Some(r)
  {
  }

  datatype User = User(id: Id, name: string, email: string, passwordHash: string, address: Option<string>, role: Role)

  datatype Store = Store(id: Id, name: string, email: Option<string>, address: Option<string>, ownerId: Id)

  datatype Rating = Rating(id: Id, userId: Id, storeId: Id, value: int)

  /** The database: three tables, each in insertion order. */
  datatype Db = Db(users: seq<User>, stores: seq<Store>, ratings: seq<Rating>)

  const USER_NAME_MAX: nat := 60
  const ADDRESS_MAX: nat := 400
  /** `DataTypes.STRING` with no length: `VARCHAR(255)`. */
  const STRING_MAX: nat := 255
  const RATING_MIN: int := 1
  const RATING_MAX: int := 5

  /** A nullable `VARCHAR(max)` value: NULL, or at most `max` characters. */
  predicate FitsIn(a: Option<string>, max: nat) {
    a.None? || |a.value| <= max
  }

  /** A `VARCHAR(400)` address column, which may be NULL. */
  predicate AddressFits(a: Option<string>) {
    FitsIn(a, ADDRESS_MAX)
  }

  /** The column constraints of `users`: name at most 60 characters, a valid email, an address that fits. */
  predicate UserRowOk(u: User, isEmail: string -> bool) {
    |u.name| <= USER_NAME_MAX && isEmail(u.email) && AddressFits(u.address)
  }

  /** The column constraints of `stores`: a name and an email of at most 255 characters, an address that fits. */
  predicate StoreRowOk(s: Store) {
    |s.name| <= STRING_MAX && FitsIn(s.email, STRING_MAX) && AddressFits(s.address)
  }

  /** The column constraint of `ratings`: a value in 1..5. */
  predicate RatingValueOk(v: int) {
    RATING_MIN <= v <= RATING_MAX
  }

  // ---------------------------------------------------------------------
  // Identity, lookups and inserts
  // ---------------------------------------------------------------------

  /** The largest id in a column, or 0 for an empty table. */
  function MaxId(ids: seq<Id>): (m: Id)
    ensures forall i :: 0 <= i < |ids| ==> ids[i] <= m
    ensures |ids| > 0 ==> exists i :: 0 <= i < |ids| && ids[i] == m
  {
    if |ids| == 0 then 0
    else
      var rest := MaxId(ids[1..]);
      if ids[0] >= rest then ids[0]
      else
        assert exists i :: 0 <= i < |ids[1..]| && ids[1..][i] == rest;
        rest
  }

  /** The next auto-increment value: above every id already used. */
  function NextId(ids: seq<Id>): (n: Id)
    ensures n > 0
    ensures forall i :: 0 <= i < |ids| ==> ids[i] < n
  {
    MaxId(ids) + 1
  }

  function UserIds(users: seq<User>): (r: seq<Id>)
    ensures |r| == |users| && forall i :: 0 <= i < |users| ==> r[i] == users[i].id
  {
    seq(|users|, i requires 0 <= i < |users| => users[i].id)
  }

  function StoreIds(stores: seq<Store>): (r: seq<Id>)
    ensures |r| == |stores| && forall i :: 0 <= i < |stores| ==> r[i] == stores[i].id
  {
    seq(|stores|, i requires 0 <= i < |stores| => stores[i].id)
  }

  function RatingIds(ratings: seq<Rating>): (r: seq<Id>)
    ensures |r| == |ratings| && forall i :: 0 <= i < |ratings| ==> r[i] == ratings[i].id
  {
    seq(|ratings|, i requires 0 <= i < |ratings| => ratings[i].id)
  }

  function UserHasId(id: Id): User -> bool {
    (u: User) => u.id == id
  }

  function StoreHasId(id: Id): Store -> bool {
    (s: Store) => s.id == id
  }

  /** `where: { owner_id }` on stores. */
  function OwnedBy(ownerId: Id): Store -> bool {
    (s: Store) => s.ownerId == ownerId
  }

  /** `User.findByPk(id)`. */
  function FindUser(users: seq<User>, id: Id): (r: Option<User>)
    ensures r.Some? ==> r.value in users && r.value.id == id
    ensures r.None? <==> forall i :: 0 <= i < |users| ==> users[i].id != id
  {
    match FirstIndex(users, UserHasId(id))
    case None => None
    case Some(i) => Some(users[i])
  }

  /** `User.findOne({ where: { email } })`: the first row with that email. */
  function FindUserByEmail(users: seq<User>, email: string): (r: Option<User>)
    ensures r.Some? ==> r.value in users && r.value.email == email
    ensures r.None? <==> forall i :: 0 <= i < |users| ==> users[i].email != email
  {
    match FirstIndex(users, (u: User) => u.email == email)
    case None => None
    case Some(i) => Some(users[i])
  }

  /** `Store.findByPk(id)`. */
  function FindStore(stores: seq<Store>, id: Id): (r: Option<Store>)
    ensures r.Some? ==> r.value in stores && r.value.id == id
    ensures r.None? <==> forall i :: 0 <= i < |stores| ==> stores[i].id != id
  {
    match FirstIndex(stores, StoreHasId(id))
    case None => None
    case Some(i) => Some(stores[i])
  }

  /** The row of `ratings` keyed by (user, store), if any. */
  predicate RatingKey(r: Rating, userId: Id, storeId: Id) {
    r.userId == userId && r.storeId == storeId
  }

  /** `Rating.findOne({ where: { store_id, user_id } })`: the index of the first matching row. */
  function FindRating(ratings: seq<Rating>, userId: Id, storeId: Id): (r: Option<nat>)
    ensures r.Some? ==> r.value < |ratings| && RatingKey(ratings[r.value], userId, storeId)
    ensures r.None? <==> forall i :: 0 <= i < |ratings| ==> !RatingKey(ratings[i], userId, storeId)
  {
    FirstIndex(ratings, (x: Rating) => RatingKey(x, userId, storeId))
  }

  /** `store.Ratings`: the rows of `ratings` with that store id, in table order. */
  function RatingsOf(ratings: seq<Rating>, storeId: Id): (r: seq<Rating>)
    ensures forall i :: 0 <= i < |r| ==> r[i] in ratings && r[i].storeId == storeId
    ensures forall i :: 0 <= i < |ratings| && ratings[i].storeId == storeId ==> ratings[i] in r
    ensures Subsequence(r, ratings)
  {
    Filter(ratings, (x: Rating) => x.storeId == storeId)
  }

  /** The id `User.create` assigns next. */
  function NewUserId(users: seq<User>): (id: Id)
    ensures id > 0 && FindUser(users, id).None?
  {
    NextId(UserIds(users))
  }

  /**
   `User.create(...)`: the row is checked against the column constraints and
   the unique index on `email`, and given the next id; a row that breaks a
   constraint makes the call throw.
   */
  function InsertUser(users: seq<User>, name: string, email: string, passwordHash: string,
                      address: Option<string>, role: Role, isEmail: string -> bool): (r: Option<User>)
    ensures r.Some? <==>
      UserRowOk(User(0, name, email, passwordHash, address, role), isEmail) && FindUserByEmail(users, email).None?
    ensures r.Some? ==> forall i :: 0 <= i < |users| ==> users[i].email != email
    ensures r.Some? ==> r.value == User(r.value.id, name, email, passwordHash, address, role)
    ensures r.Some? ==> r.value.id > 0 && FindUser(users, r.value.id).None?
  {
    var u := User(NewUserId(users), name, email, passwordHash, address, role);
    if UserRowOk(u, isEmail) && FindUserByEmail(users, email).None? then Some(u) else None
  }

  // ---------------------------------------------------------------------
  // Invariants
  // ---------------------------------------------------------------------

  /** Primary keys are unique in every table. */
  predicate UniqueIds(db: Db) {
    && (forall i, j :: 0 <= i < j < |db.users| ==> db.users[i].id != db.users[j].id)
    && (forall i, j :: 0 <= i < j < |db.stores| ==> db.stores[i].id != db.stores[j].id)
    && (forall i, j :: 0 <= i < j < |db.ratings| ==> db.ratings[i].id != db.ratings[j].id)
  }

  /** The `unique: true` constraint on `users.email`. */
  predicate UniqueEmails(users: seq<User>) {
    forall i, j :: 0 <= i < j < |users| ==> users[i].email != users[j].email
  }

  /** At most one rating per (user, store): the rule the rating controller keeps. */
  predicate UniquePairs(ratings: seq<Rating>) {
    forall i, j :: 0 <= i < j < |ratings| ==>
      !(ratings[i].userId == ratings[j].userId && ratings[i].storeId == ratings[j].storeId)
  }

  /** Every rating value is in 1..5. */
  predicate RatingsInRange(ratings: seq<Rating>) {
    forall i :: 0 <= i < |ratings| ==> RatingValueOk(ratings[i].value)
  }

  /** Every store's owner is an existing user with role store_owner. */
  predicate OwnersAreStoreOwners(db: Db) {
    forall i :: 0 <= i < |db.stores| ==>
      FindUser(db.users, db.stores[i].ownerId).Some? && FindUser(db.users, db.stores[i].ownerId).value.role == StoreOwner
  }

  /** The foreign keys `ratings.user_id` and `ratings.store_id` resolve. */
  predicate RatingsReferToRows(db: Db) {
    forall i :: 0 <= i < |db.ratings| ==>
      FindUser(db.users, db.ratings[i].userId).Some? && FindStore(db.stores, db.ratings[i].storeId).Some?
  }

  /** The length bounds of the `VARCHAR` columns hold in every row. */
  predicate ColumnsFit(db: Db) {
    && (forall i :: 0 <= i < |db.users| ==> |db.users[i].name| <= USER_NAME_MAX && AddressFits(db.users[i].address))
    && (forall i :: 0 <= i < |db.stores| ==> StoreRowOk(db.stores[i]))
  }

  /** The consistency the application maintains over its tables. */
  predicate Valid(db: Db) {
    && UniqueIds(db)
    && ColumnsFit(db)
    && UniqueEmails(db.users)
    && UniquePairs(db.ratings)
    && RatingsInRange(db.ratings)
    && OwnersAreStoreOwners(db)
    && RatingsReferToRows(db)
  }

  /** A handler's outcome: the reply it sends and the database it leaves. */
  datatype Step<+T> = Step(reply: Reply<T>, db: Db)

  // ---------------------------------------------------------------------
  // The table operations keep the invariants
  // ---------------------------------------------------------------------

  lemma FindUserAppend(users: seq<User>, u: User, id: Id)
    requires FindUser(users, id).Some?
    ensures FindUser(users + [u], id) == FindUser(users, id)
  {
    FirstIndexAppend(users, [u], UserHasId(id));
  }

  /** A user appended under an email no row holds is the one a lookup by that email finds. */
  lemma FindAppendedByEmail(users: seq<User>, u: User)
    requires FindUserByEmail(users, u.email).None?
    ensures FindUserByEmail(users + [u], u.email) == Some(u)
  {
    var s := users + [u];
    assert s[|users|] == u;
    var found := FindUserByEmail(s, u.email).value;
    assert found !in users;
  }

  lemma FindStoreAppend(stores: seq<Store>, st: Store, id: Id)
    requires FindStore(stores, id).Some?
    ensures FindStore(stores + [st], id) == FindStore(stores, id)
  {
    FirstIndexAppend(stores, [st], StoreHasId(id));
  }

  /** Changing a user's password hash changes nothing any lookup by id depends on but the hash. */
  lemma FindUserAfterRehash(users: seq<User>, i: nat, h: string, id: Id)
    requires i < |users|
    ensures FindUser(users[i := users[i].(passwordHash := h)], id).Some? == FindUser(users, id).Some?
    ensures FindUser(users, id).Some? ==>
      FindUser(users[i := users[i].(passwordHash := h)], id).value.role == FindUser(users, id).value.role
  {
    FirstIndexUpdate(users, i, users[i].(passwordHash := h), UserHasId(id));
  }

  /** Adding a user with a fresh id, a fresh email and fitting columns keeps the database valid. */
  lemma AddUserKeepsValid(db: Db, u: User)
    requires Valid(db)
    requires FindUser(db.users, u.id).None? && FindUserByEmail(db.users, u.email).None?
    requires |u.name| <= USER_NAME_MAX && AddressFits(u.address)
    ensures Valid(db.(users := db.users + [u]))
  {
    var db' := db.(users := db.users + [u]);
    forall i | 0 <= i < |db.stores|
      ensures FindUser(db'.users, db.stores[i].ownerId) == FindUser(db.users, db.stores[i].ownerId)
    {
      FindUserAppend(db.users, u, db.stores[i].ownerId);
    }
    forall i | 0 <= i < |db.ratings|
      ensures FindUser(db'.users, db.ratings[i].userId) == FindUser(db.users, db.ratings[i].userId)
    {
      FindUserAppend(db.users, u, db.ratings[i].userId);
    }
  }

  /** Replacing one user's password hash keeps the database valid. */
  lemma RehashKeepsValid(db: Db, i: nat, h: string)
    requires Valid(db) && i < |db.users|
    ensures Valid(db.(users := db.users[i := db.users[i].(passwordHash := h)]))
  {
    var users' := db.users[i := db.users[i].(passwordHash := h)];
    forall k | 0 <= k < |db.stores|
      ensures FindUser(users', db.stores[k].ownerId).Some?
      ensures FindUser(users', db.stores[k].ownerId).value.role == StoreOwner
    {
      FindUserAfterRehash(db.users, i, h, db.stores[k].ownerId);
    }
    forall k | 0 <= k < |db.ratings|
      ensures FindUser(users', db.ratings[k].userId).Some?
    {
      FindUserAfterRehash(db.users, i, h, db.ratings[k].userId);
    }
  }

  /** Adding a store with a fresh id, a store_owner as owner and a fitting address keeps the database valid. */
  lemma AddStoreKeepsValid(db: Db, st: Store)
    requires Valid(db)
    requires FindStore(db.stores, st.id).None? && StoreRowOk(st)
    requires FindUser(db.users, st.ownerId).Some? && FindUser(db.users, st.ownerId).value.role == StoreOwner
    ensures Valid(db.(stores := db.stores + [st]))
  {
    forall i | 0 <= i < |db.ratings|
      ensures FindStore(db.stores + [st], db.ratings[i].storeId).Some?
    {
      FindStoreAppend(db.stores, st, db.ratings[i].storeId);
    }
  }

  /** Adding a rating with a fresh id, a fresh (user, store) key, a value in range and resolving references keeps the database valid. */
  lemma AddRatingKeepsValid(db: Db, r: Rating)
    requires Valid(db)
    requires forall i :: 0 <= i < |db.ratings| ==> db.ratings[i].id != r.id
    requires FindRating(db.ratings, r.userId, r.storeId).None?
    requires RatingValueOk(r.value)
    requires FindUser(db.users, r.userId).Some? && FindStore(db.stores, r.storeId).Some?
    ensures Valid(db.(ratings := db.ratings + [r]))
  {
    var db' := db.(ratings := db.ratings + [r]);
    AppendRatingKeepsIds(db, r);
    AppendRatingKeepsPairs(db.ratings, r);
    AppendRatingKeepsRange(db.ratings, r);
    SameUsersAndStoresKeepUserFacts(db, db');
    AppendRatingKeepsReferences(db, r);
  }

  lemma AppendRatingKeepsRange(ratings: seq<Rating>, r: Rating)
    requires RatingsInRange(ratings) && RatingValueOk(r.value)
    ensures RatingsInRange(ratings + [r])
  {
  }

  lemma AppendRatingKeepsIds(db: Db, r: Rating)
    requires UniqueIds(db)
    requires forall i :: 0 <= i < |db.ratings| ==> db.ratings[i].id != r.id
    ensures UniqueIds(db.(ratings := db.ratings + [r]))
  {
  }

  lemma AppendRatingKeepsPairs(ratings: seq<Rating>, r: Rating)
    requires UniquePairs(ratings)
    requires FindRating(ratings, r.userId, r.storeId).None?
    ensures UniquePairs(ratings + [r])
  {
  }

  lemma SameUsersAndStoresKeepUserFacts(db: Db, db': Db)
    requires OwnersAreStoreOwners(db) && ColumnsFit(db) && UniqueEmails(db.users)
    requires db'.users == db.users && db'.stores == db.stores
    ensures OwnersAreStoreOwners(db') && ColumnsFit(db') && UniqueEmails(db'.users)
  {
  }

  lemma AppendRatingKeepsReferences(db: Db, r: Rating)
    requires RatingsReferToRows(db)
    requires FindUser(db.users, r.userId).Some? && FindStore(db.stores, r.storeId).Some?
    ensures RatingsReferToRows(db.(ratings := db.ratings + [r]))
  {
  }

  /** Overwriting the value of one rating with a value in range keeps the database valid. */
  lemma SetRatingKeepsValid(db: Db, i: nat, v: int)
    requires Valid(db) && i < |db.ratings| && RatingValueOk(v)
    ensures Valid(db.(ratings := db.ratings[i := db.ratings[i].(value := v)]))
  {
    var db' := db.(ratings := db.ratings[i := db.ratings[i].(value := v)]);
    SetRatingKeepsKeys(db, i, v);
    SameUsersAndStoresKeepUserFacts(db, db');
  }

  lemma SetRatingKeepsKeys(db: Db, i: nat, v: int)
    requires UniqueIds(db) && UniquePairs(db.ratings) && RatingsInRange(db.ratings) && RatingsReferToRows(db)
    requires i < |db.ratings| && RatingValueOk(v)
    ensures var db' := db.(ratings := db.ratings[i := db.ratings[i].(value := v)]);
      UniqueIds(db') && UniquePairs(db'.ratings) && RatingsInRange(db'.ratings) && RatingsReferToRows(db')
  {
    var rs := db.ratings[i := db.ratings[i].(value := v)];
    SetRatingKeepsIdsAndPairs(db.ratings, i, v);
    assert forall k :: 0 <= k < |rs| ==> rs[k].userId == db.ratings[k].userId && rs[k].storeId == db.ratings[k].storeId;
  }

  /** Changing a rating's value moves no id and no (user, store) key. */
  lemma SetRatingKeepsIdsAndPairs(ratings: seq<Rating>, i: nat, v: int)
    requires i < |ratings|
    ensures var rs := ratings[i := ratings[i].(value := v)];
      && |rs| == |ratings|
      && (forall k :: 0 <= k < |rs| ==> rs[k].id == ratings[k].id)
      && (UniquePairs(ratings) ==> UniquePairs(rs))
      && (RatingsInRange(ratings) && RatingValueOk(v) ==> RatingsInRange(rs))
  {
    var rs := ratings[i := ratings[i].(value := v)];
    assert forall k :: 0 <= k < |rs| ==> rs[k].userId == ratings[k].userId && rs[k].storeId == ratings[k].storeId;
  }
}

=== FILE: passwords.dfy ===
/**
 The two password-strength regular expressions of the application, read
 with JavaScript semantics (no flags: `.` matches any UTF-16 code unit
 except a line terminator, character classes are code-unit sets):

   signup  /^(?=.*[A-Z])(?=.*[!@#$%^&*()_\-+={}[\]|\\:;"'<>,.?/~`]).{8,16}$/
   update  /^(?=.*[A-Z])(?=.*[\W_]).{8,16}$/

 Each is modelled by the structure of the expression (two look-aheads and a
 bounded `.` repetition) and then characterised as a plain predicate.
 */
module Passwords {

  /** The line terminators `.` does not match: LF, CR, U+2028, U+2029. */
  predicate LineTerminator(c: char) {
    c == '\n' || c == '\r' || c as int == 0x2028 || c as int == 0x2029
  }

  /** `.` without the `s` flag. */
  predicate Dot(c: char) {
    !LineTerminator(c)
  }

  /** `[A-Z]`. */
  predicate Upper(c: char) {
    'A' <= c <= 'Z'
  }

  /** The symbols of the signup class: exactly the 32 ASCII punctuation characters. */
  const SIGNUP_SYMBOLS: string := "!@#$%^&*()_-+={}[]|\\:;\"'<>,.?/~`"

  /** `[!@#$%^&*()_\-+={}[\]|\\:;"'<>,.?/~`]`. */
  predicate SignupSymbol(c: char) {
    c in SIGNUP_SYMBOLS
  }

  /** `\w` without the `u` flag: `[A-Za-z0-9_]`. */
  predicate Word(c: char) {
    'A' <= c <= 'Z' || 'a' <= c <= 'z' || '0' <= c <= '9' || c == '_'
  }

  /** `[\W_]`: any code unit but an ASCII letter or digit. */
  predicate NonWordOrUnderscore(c: char) {
    !Word(c) || c == '_'
  }

  /** The look-ahead `(?=.*[C])` at the start of `s`: some `C` follows a run of `.`. */
  predicate DotStarThen(s: string, cls: char -> bool)
    decreases |s|
  {
    |s| > 0 && (cls(s[0]) || (Dot(s[0]) && DotStarThen(s[1..], cls)))
  }

  /** `^.{8,16}$`. */
  predicate DotRun8To16(s: string) {
    8 <= |s| <= 16 && forall i :: 0 <= i < |s| ==> Dot(s[i])
  }

  /** `passwordPattern.test(s)` (signup, server and client alike). */
  predicate SignupPattern(s: string) {
    DotStarThen(s, Upper) && DotStarThen(s, SignupSymbol) && DotRun8To16(s)
  }

  /** `passRegex.test(s)` (update-password). */
  predicate UpdatePattern(s: string) {
    DotStarThen(s, Upper) && DotStarThen(s, NonWordOrUnderscore) && DotRun8To16(s)
  }

  /** Over a string with no line terminator, the look-ahead holds iff some character is in the class. */
  lemma {:induction false} DotStarThenIff(s: string, cls: char -> bool)
    requires forall i :: 0 <= i < |s| ==> Dot(s[i])
    ensures DotStarThen(s, cls) <==> exists i :: 0 <= i < |s| && cls(s[i])
  {
    if |s| > 0 {
      DotStarThenIff(s[1..], cls);
      if exists i :: 0 <= i < |s| && cls(s[i]) {
        var i :| 0 <= i < |s| && cls(s[i]);
        if i > 0 {
          assert cls(s[1..][i - 1]);
        }
      }
      if exists i :: 0 <= i < |s[1..]| && cls(s[1..][i]) {
        var i :| 0 <= i < |s[1..]| && cls(s[1..][i]);
        assert cls(s[i + 1]);
      }
    }
  }

  /**
   A password matches the signup pattern iff it has 8 to 16 characters, none
   of them a line terminator, at least one in A-Z and at least one of the
   punctuation symbols.
   */
  lemma SignupPatternIff(s: string)
    ensures SignupPattern(s) <==>
      && 8 <= |s| <= 16
      && (forall i :: 0 <= i < |s| ==> !LineTerminator(s[i]))
      && (exists i :: 0 <= i < |s| && Upper(s[i]))
      && (exists i :: 0 <= i < |s| && SignupSymbol(s[i]))
  {
    if forall i :: 0 <= i < |s| ==> Dot(s[i]) {
      DotStarThenIff(s, Upper);
      DotStarThenIff(s, SignupSymbol);
    }
  }

  /** The update-password pattern, characterised the same way with `[\W_]` as the symbol class. */
  lemma UpdatePatternIff(s: string)
    ensures UpdatePattern(s) <==>
      && 8 <= |s| <= 16
      && (forall i :: 0 <= i < |s| ==> !LineTerminator(s[i]))
      && (exists i :: 0 <= i < |s| && Upper(s[i]))
      && (exists i :: 0 <= i < |s| && NonWordOrUnderscore(s[i]))
  {
    if forall i :: 0 <= i < |s| ==> Dot(s[i]) {
      DotStarThenIff(s, Upper);
      DotStarThenIff(s, NonWordOrUnderscore);
    }
  }

  lemma SymbolIsNonWord(c: char)
    requires SignupSymbol(c)
    ensures NonWordOrUnderscore(c)
  {
    assert exists k :: 0 <= k < |SIGNUP_SYMBOLS| && SIGNUP_SYMBOLS[k] == c;
    var k :| 0 <= k < |SIGNUP_SYMBOLS| && SIGNUP_SYMBOLS[k] == c;
    assert !Word(SIGNUP_SYMBOLS[k]) || SIGNUP_SYMBOLS[k] == '_';
  }

  /** Every password accepted at signup is accepted by the update-password check. */
  lemma SignupStrongIsUpdateStrong(s: string)
    requires SignupPattern(s)
    ensures UpdatePattern(s)
  {
    SignupPatternIff(s);
    UpdatePatternIff(s);
    var j :| 0 <= j < |s| && SignupSymbol(s[j]);
    SymbolIsNonWord(s[j]);
  }

  /** The converse fails: a space counts as a symbol for the update check only. */
  lemma SpaceIsUpdateSymbolOnly()
    ensures UpdatePattern("AAAAAAA ") && !SignupPattern("AAAAAAA ")
  {
    SpacePasswordIsUpdateStrong();
    SpacePasswordHasNoSignupSymbol();
  }

  lemma SpacePasswordIsUpdateStrong()
    ensures UpdatePattern("AAAAAAA ")
  {
    var s := "AAAAAAA ";
    assert DotStarThen(s, Upper);
    assert DotStarThen(s[7..], NonWordOrUnderscore);
    assert DotStarThen(s[6..], NonWordOrUnderscore);
    assert DotStarThen(s[5..], NonWordOrUnderscore);
    assert DotStarThen(s[4..], NonWordOrUnderscore);
    assert DotStarThen(s[3..], NonWordOrUnderscore);
    assert DotStarThen(s[2..], NonWordOrUnderscore);
    assert DotStarThen(s[1..], NonWordOrUnderscore);
    assert forall i :: 0 <= i < |s| ==> s[i] == 'A' || s[i] == ' ';
  }

  lemma SpacePasswordHasNoSignupSymbol()
    ensures !DotStarThen("AAAAAAA ", SignupSymbol)
  {
    var s := "AAAAAAA ";
    assert !SignupSymbol('A') && !SignupSymbol(' ');
    assert !DotStarThen(s[7..], SignupSymbol);
    assert !DotStarThen(s[6..], SignupSymbol);
    assert !DotStarThen(s[5..], SignupSymbol);
    assert !DotStarThen(s[4..], SignupSymbol);
    assert !DotStarThen(s[3..], SignupSymbol);
    assert !DotStarThen(s[2..], SignupSymbol);
    assert !DotStarThen(s[1..], SignupSymbol);
  }
}

=== FILE: rating_engine.dfy ===
/**
 The rating controller: submitting a rating (range check, then
 find-then-update-or-create keyed by (user, store)), listing the stores
 with their average, and a store's ratings with their raters.

 The one-rating-per-(user, store) rule rests only on the find-then-act
 sequence of `submitRating`; the ratings table declares no unique key over
 the pair. The model covers submits applied one after another.
 */
module RatingEngine {
  import opened Common
  import opened Models
  import opened Averages

  const RATING_OUT_OF_RANGE: string := "Rating must be between 1 and 5"
  const SERVER_ERROR_MESSAGE: string := "Server error"
  const STORE_NOT_FOUND: string := "Store not found"

  /** The rows of `ratings` for one (user, store) pair. */
  function PairCount(ratings: seq<Rating>, userId: Id, storeId: Id): nat {
    Count(ratings, (x: Rating) => RatingKey(x, userId, storeId))
  }

  /**
   POST /api/rating/submit by the user the gate resolved. `storeId` is
   `req.body.store_id` (absent is `None`), `value` is `req.body.rating`.

   - A missing value, or one outside 1..5, is refused with 400.
   - An absent `store_id` makes Sequelize's `where` throw: 500.
   - An existing row for (caller, store) gets the new value and is returned
     with 200; nothing else changes.
   - Otherwise a new row is created and returned with 201; if the store or
     the caller does not exist the foreign-key constraint makes the insert
     throw: 500.
   */
  function Submit(db: Db, callerId: Id, storeId: Option<Id>, value: Option<int>): (s: Step<Rating>)
    ensures value.None? || !RatingValueOk(value.value) ==> s == Step(Err(BAD_REQUEST, RATING_OUT_OF_RANGE), db)
    ensures value.Some? && RatingValueOk(value.value) && storeId.None? ==> s == Step(Err(SERVER_ERROR, SERVER_ERROR_MESSAGE), db)
    ensures s.reply.Err? ==> s.db == db
    ensures s.db.users == db.users && s.db.stores == db.stores
    ensures s.reply.Ok? ==> value.Some? && RatingValueOk(value.value) && storeId.Some?
    ensures s.reply.Ok? ==>
      && s.reply.value.userId == callerId && s.reply.value.storeId == storeId.value && s.reply.value.value == value.value
      && s.reply.value in s.db.ratings
    // An existing row is updated in place: same rows, same order, one value changed.
    ensures value.Some? && RatingValueOk(value.value) && storeId.Some? ==>
      FindRating(db.ratings, callerId, storeId.value).Some? ==>
      var i := FindRating(db.ratings, callerId, storeId.value).value;
      && s.reply == Ok(OK, db.ratings[i].(value := value.value))
      && s.db.ratings == db.ratings[i := db.ratings[i].(value := value.value)]
    // Otherwise exactly one row is appended.
    ensures value.Some? && RatingValueOk(value.value) && storeId.Some? ==>
      FindRating(db.ratings, callerId, storeId.value).None? ==>
      if FindStore(db.stores, storeId.value).Some? && FindUser(db.users, callerId).Some? then
        && s.reply.Ok? && s.reply.status == CREATED
        && s.db.ratings == db.ratings + [s.reply.value]
        && forall i :: 0 <= i < |db.ratings| ==> db.ratings[i].id != s.reply.value.id
      else s == Step(Err(SERVER_ERROR, SERVER_ERROR_MESSAGE), db)
    // Rows of other users or other stores are never touched.
    ensures |s.db.ratings| >= |db.ratings|
    ensures forall i :: 0 <= i < |db.ratings| && (storeId.None? || !RatingKey(db.ratings[i], callerId, storeId.value)) ==>
      s.db.ratings[i] == db.ratings[i]
    ensures Valid(db) ==> Valid(s.db)
  {
    if value.None? || !RatingValueOk(value.value) then Step(Err(BAD_REQUEST, RATING_OUT_OF_RANGE), db)
    else if storeId.None? then Step(Err(SERVER_ERROR, SERVER_ERROR_MESSAGE), db)
    else
      var v := value.value;
      var sid := storeId.value;
      match FindRating(db.ratings, callerId, sid)
      case Some(i) => UpdateRating(db, i, v)
      case None =>
        if FindStore(db.stores, sid).None? || FindUser(db.users, callerId).None? then
          Step(Err(SERVER_ERROR, SERVER_ERROR_MESSAGE), db)
        else InsertRating(db, callerId, sid, v)
  }

  /** `existing.rating = rating; existing.save()`: 200 with the row, its value replaced in place. */
  function UpdateRating(db: Db, i: nat, v: int): (s: Step<Rating>)
    requires i < |db.ratings|
    ensures s.reply == Ok(OK, db.ratings[i].(value := v))
    ensures s.db == db.(ratings := db.ratings[i := db.ratings[i].(value := v)])
    ensures s.db.ratings[i] == s.reply.value
    ensures Valid(db) && RatingValueOk(v) ==> Valid(s.db)
  {
    var row := db.ratings[i].(value := v);
    var db' := db.(ratings := db.ratings[i := row]);
    assert Valid(db) && RatingValueOk(v) ==> Valid(db') by {
      if Valid(db) && RatingValueOk(v) { SetRatingKeepsValid(db, i, v); }
    }
    Step(Ok(OK, row), db')
  }

  /** `Rating.create(...)`: 201 with a new row under the next free id, appended to the table. */
  function InsertRating(db: Db, callerId: Id, sid: Id, v: int): (s: Step<Rating>)
    ensures s.reply.Ok? && s.reply.status == CREATED
    ensures s.reply.value.userId == callerId && s.reply.value.storeId == sid && s.reply.value.value == v
    ensures forall i :: 0 <= i < |db.ratings| ==> db.ratings[i].id != s.reply.value.id
    ensures s.db == db.(ratings := db.ratings + [s.reply.value])
    ensures Valid(db) && Insertable(db, callerId, sid, v) ==> Valid(s.db)
  {
    var row := Rating(NextId(RatingIds(db.ratings)), callerId, sid, v);
    var db' := db.(ratings := db.ratings + [row]);
    assert Valid(db) && Insertable(db, callerId, sid, v) ==> Valid(db') by {
      if Valid(db) && Insertable(db, callerId, sid, v) { AddRatingKeepsValid(db, row); }
    }
    Step(Ok(CREATED, row), db')
  }

  /** What the handler has checked before it inserts: the value is in range, the pair is unrated, both rows exist. */
  predicate Insertable(db: Db, callerId: Id, sid: Id, v: int) {
    && RatingValueOk(v)
    && FindRating(db.ratings, callerId, sid).None?
    && FindStore(db.stores, sid).Some?
    && FindUser(db.users, callerId).Some?
  }

  /**
   A successful submit leaves exactly one row for (caller, store) in a table
   that had at most one per pair.
   */
  lemma SubmitLeavesOneRow(db: Db, callerId: Id, storeId: Id, value: int)
    requires UniquePairs(db.ratings)
    requires Submit(db, callerId, Some(storeId), Some(value)).reply.Ok?
    ensures PairCount(Submit(db, callerId, Some(storeId), Some(value)).db.ratings, callerId, storeId) == 1
  {
    var s := Submit(db, callerId, Some(storeId), Some(value));
    var p := (x: Rating) => RatingKey(x, callerId, storeId);
    match FindRating(db.ratings, callerId, storeId)
    case Some(i) =>
      UniquePairsCount(db.ratings, callerId, storeId, i);
      CountUpdateSameTruth(db.ratings, i, db.ratings[i].(value := value), p);
    case None =>
      CountZeroIffNone(db.ratings, p);
      CountAppend(db.ratings, s.reply.value, p);
  }

  /** In a table with unique pairs, a pair present at index `i` is counted once. */
  lemma {:induction false} UniquePairsCount(ratings: seq<Rating>, userId: Id, storeId: Id, i: nat)
    requires UniquePairs(ratings)
    requires i < |ratings| && RatingKey(ratings[i], userId, storeId)
    ensures PairCount(ratings, userId, storeId) == 1
  {
    var p := (x: Rating) => RatingKey(x, userId, storeId);
    if i == 0 {
      assert forall j :: 0 <= j < |ratings[1..]| ==> !p(ratings[1..][j]) by {
        forall j | 0 <= j < |ratings[1..]|
          ensures !p(ratings[1..][j])
        {
          assert ratings[1..][j] == ratings[j + 1];
        }
      }
      CountZeroIffNone(ratings[1..], p);
    } else {
      assert !p(ratings[0]);
      assert UniquePairs(ratings[1..]) by {
        forall a, b | 0 <= a < b < |ratings[1..]|
          ensures !(ratings[1..][a].userId == ratings[1..][b].userId && ratings[1..][a].storeId == ratings[1..][b].storeId)
        {
          assert ratings[1..][a] == ratings[a + 1] && ratings[1..][b] == ratings[b + 1];
        }
      }
      UniquePairsCount(ratings[1..], userId, storeId, i - 1);
    }
  }

  /**
   Submitting (user, store, v1) and then (user, store, v2) leaves one row for
   the pair, holding v2: an upsert, not a second insert. With v1 == v2 this
   is idempotence.
   */
  lemma SubmitTwiceKeepsOneRow(db: Db, callerId: Id, storeId: Id, v1: int, v2: int)
    requires UniquePairs(db.ratings)
    requires Submit(db, callerId, Some(storeId), Some(v1)).reply.Ok?
    requires RatingValueOk(v2)
    ensures var db1 := Submit(db, callerId, Some(storeId), Some(v1)).db;
      var s2 := Submit(db1, callerId, Some(storeId), Some(v2));
      && s2.reply.Ok? && s2.reply.status == OK && s2.reply.value.value == v2
      && |s2.db.ratings| == |db1.ratings|
      && PairCount(s2.db.ratings, callerId, storeId) == 1
      && FindRating(s2.db.ratings, callerId, storeId).Some?
      && s2.db.ratings[FindRating(s2.db.ratings, callerId, storeId).value].value == v2
  {
    var s1 := Submit(db, callerId, Some(storeId), Some(v1));
    SubmitLeavesOneRow(db, callerId, storeId, v1);
    assert UniquePairs(s1.db.ratings) by { SubmitKeepsUniquePairs(db, callerId, storeId, v1); }
    var k :| 0 <= k < |s1.db.ratings| && s1.db.ratings[k] == s1.reply.value;
    assert RatingKey(s1.db.ratings[k], callerId, storeId);
    var i := FindRating(s1.db.ratings, callerId, storeId).value;
    SubmitLeavesOneRow(s1.db, callerId, storeId, v2);
    var s2 := Submit(s1.db, callerId, Some(storeId), Some(v2));
    FirstIndexUpdate(s1.db.ratings, i, s1.db.ratings[i].(value := v2), (x: Rating) => RatingKey(x, callerId, storeId));
  }

  /** Sequential submits keep at most one rating per (user, store). */
  lemma SubmitKeepsUniquePairs(db: Db, callerId: Id, storeId: Id, value: int)
    requires UniquePairs(db.ratings)
    ensures UniquePairs(Submit(db, callerId, Some(storeId), Some(value)).db.ratings)
  {
    var s := Submit(db, callerId, Some(storeId), Some(value));
    if s.reply.Ok? {
      match FindRating(db.ratings, callerId, storeId)
      case Some(i) =>
        assert forall k :: 0 <= k < |db.ratings| ==>
          s.db.ratings[k].userId == db.ratings[k].userId && s.db.ratings[k].storeId == db.ratings[k].storeId;
      case None =>
        AppendRatingKeepsPairs(db.ratings, s.reply.value);
    }
  }

  // ---------------------------------------------------------------------
  // Reading
  // ---------------------------------------------------------------------

  /** One entry of GET /api/rating/stores. */
  datatype StoreAverage = StoreAverage(id: Id, name: string, address: Option<string>, average: Option<Mean>)

  /**
   GET /api/rating/stores: every store, in table order, with the database's
   `AVG(rating)` over the ratings with its id (NULL when there are none).
   */
  function ListStores(db: Db): (r: seq<StoreAverage>)
    ensures |r| == |db.stores|
    ensures forall i :: 0 <= i < |r| ==>
      && r[i].id == db.stores[i].id && r[i].name == db.stores[i].name && r[i].address == db.stores[i].address
      && (r[i].average.None? <==> forall k :: 0 <= k < |db.ratings| ==> db.ratings[k].storeId != db.stores[i].id)
      && r[i].average == ReduceAverage(RatingsOf(db.ratings, db.stores[i].id))
  {
    var r := seq(|db.stores|, i requires 0 <= i < |db.stores| =>
      var st := db.stores[i];
      StoreAverage(st.id, st.name, st.address, SqlAverage(db.ratings, st.id)));
    assert forall i :: 0 <= i < |r| ==> r[i].average == ReduceAverage(RatingsOf(db.ratings, db.stores[i].id)) by {
      forall i | 0 <= i < |r|
        ensures r[i].average == ReduceAverage(RatingsOf(db.ratings, db.stores[i].id))
      {
        SqlAndReduceAgree(db.ratings, db.stores[i].id);
      }
    }
    r
  }

  /** One rating in a store's detail, with its rater row (`include: [User]`). */
  datatype RatedBy = RatedBy(rating: Rating, rater: Option<User>)

  datatype StoreRatings = StoreRatings(store: Store, ratings: seq<RatedBy>)

  function WithRaters(rs: seq<Rating>, users: seq<User>): (r: seq<RatedBy>)
    ensures |r| == |rs|
    ensures forall i :: 0 <= i < |rs| ==> r[i] == RatedBy(rs[i], FindUser(users, rs[i].userId))
  {
    seq(|rs|, i requires 0 <= i < |rs| => RatedBy(rs[i], FindUser(users, rs[i].userId)))
  }

  /**
   GET /api/rating/store/:storeId: 404 for an unknown store, otherwise the
   store with all of its ratings and their raters. The caller is not
   compared with the store's owner: any store owner can read any store.
   The rater rows are included whole, password digest included.
   */
  function GetStoreRatings(db: Db, callerId: Id, storeId: Id): (r: Reply<StoreRatings>)
    ensures FindStore(db.stores, storeId).None? <==> r == Err(NOT_FOUND, STORE_NOT_FOUND)
    ensures FindStore(db.stores, storeId).Some? ==> r.Ok?
    ensures r.Ok? ==>
      && r.status == OK
      && r.value.store == FindStore(db.stores, storeId).value
      && |r.value.ratings| == |RatingsOf(db.ratings, storeId)|
      && (forall i :: 0 <= i < |r.value.ratings| ==>
            r.value.ratings[i].rating.storeId == storeId && r.value.ratings[i].rating in db.ratings
            && r.value.ratings[i].rater == FindUser(db.users, r.value.ratings[i].rating.userId))
      && (forall k :: 0 <= k < |db.ratings| && db.ratings[k].storeId == storeId ==>
            exists i :: 0 <= i < |r.value.ratings| && r.value.ratings[i].rating == db.ratings[k])
  {
    match FindStore(db.stores, storeId)
    case None => Err(NOT_FOUND, STORE_NOT_FOUND)
    case Some(st) =>
      var rs := RatingsOf(db.ratings, storeId);
      var out := WithRaters(rs, db.users);
      assert forall k :: 0 <= k < |db.ratings| && db.ratings[k].storeId == storeId ==>
        exists i :: 0 <= i < |out| && out[i].rating == db.ratings[k] by {
        forall k | 0 <= k < |db.ratings| && db.ratings[k].storeId == storeId
          ensures exists i :: 0 <= i < |out| && out[i].rating == db.ratings[k]
        {
          var i :| 0 <= i < |rs| && rs[i] == db.ratings[k];
          assert out[i].rating == db.ratings[k];
        }
      }
      Ok(OK, StoreRatings(st, out))
  }

  /** The reply does not depend on who asks. */
  lemma StoreRatingsIgnoreCaller(db: Db, a: Id, b: Id, storeId: Id)
    ensures GetStoreRatings(db, a, storeId) == GetStoreRatings(db, b, storeId)
  {
  }
}

=== FILE: services.dfy ===
/**
 The foreign libraries the handlers call, kept abstract: bcrypt (hash and
 compare), jsonwebtoken (sign and verify) and the email-address checker of
 the validation libraries. Each is a function-valued field, so every
 property proved about a handler holds whatever these functions are; where a
 property needs something of them (a hash verifies against its own
 plaintext, a signed token verifies until it expires) the lemma says so in
 its `requires`.
 */
module Services {
  import opened Common
  import opened Models

  /** The payload of a token: `{ id, role }` plus the `iat`/`exp` times jsonwebtoken adds, in seconds. */
  datatype Claims = Claims(id: Id, role: Role, issuedAt: int, expiresAt: int)

  /** `expiresIn: "7d"`, in seconds. */
  const TOKEN_LIFETIME: int := 7 * 24 * 60 * 60

  datatype Services = Services(
    /** Email-address syntax check (Joi's `email()`, Sequelize's `isEmail`). */
    isEmail: string -> bool,
    /** `bcrypt.hash(plaintext, rounds)`; the salt is the randomness bcrypt draws. */
    hash: (string, nat) -> string,
    /** `bcrypt.compare(plaintext, digest)`. */
    verify: (string, string) -> bool,
    /** `jwt.sign(claims, secret)`. */
    sign: Claims -> string,
    /** `jwt.verify(token, secret)` at a given time: the claims, or nothing for a bad or expired token. */
    decode: (string, int) -> Option<Claims>)

  /** bcrypt's promise: a digest verifies against the plaintext it was made from. */
  ghost predicate HashVerifies(svc: Services) {
    forall p: string, salt: nat :: svc.verify(p, svc.hash(p, salt))
  }

  /** jsonwebtoken's promise: a signed token decodes to its claims until it expires. */
  ghost predicate TokensDecode(svc: Services) {
    forall c: Claims, now: int :: now < c.expiresAt ==> svc.decode(svc.sign(c), now) == Some(c)
  }
}

=== FILE: store_controller.dfy ===
/**
 The store controller's one handler: a store owner's own stores.
 */
module StoreController {
  import opened Common
  import opened Models

  const INTERNAL_ERROR: string := "Internal server error"

  /**
   GET /api/store/my: the stores whose `owner_id` is the caller's id, in
   table order, with 200 (an empty list when there are none). `storeFault`
   stands for the query throwing, which answers 500.
   */
  function GetMyStores(db: Db, callerId: Id, storeFault: bool): (r: Reply<seq<Store>>)
    ensures storeFault <==> r == Err(SERVER_ERROR, INTERNAL_ERROR)
    ensures r.Ok? ==> r.status == OK
    ensures r.Ok? ==> forall i :: 0 <= i < |r.value| ==> r.value[i] in db.stores && r.value[i].ownerId == callerId
    ensures r.Ok? ==> forall k :: 0 <= k < |db.stores| && db.stores[k].ownerId == callerId ==> db.stores[k] in r.value
    ensures r.Ok? ==> Subsequence(r.value, db.stores)
    ensures r.Ok? ==> (|r.value| == 0 <==> forall k :: 0 <= k < |db.stores| ==> db.stores[k].ownerId != callerId)
  {
    if storeFault then Err(SERVER_ERROR, INTERNAL_ERROR)
    else
      var mine := Filter(db.stores, OwnedBy(callerId));
      Ok(OK, mine)
  }
}

=== FILE: validators.dfy ===
/**
 The Joi request schemas for signup and login, as predicates over request
 bodies. `Joi.string()` rejects `null` and the empty string unless they are
 explicitly allowed, and `.required()` rejects an absent key.
 */
module Validators {
  import opened Common
  import opened Passwords

  datatype SignupBody = SignupBody(name: Field, email: Field, address: Field, password: Field)

  datatype LoginBody = LoginBody(email: Field, password: Field)

  const NAME_MIN: nat := 20
  const NAME_MAX: nat := 60
  const ADDRESS_LIMIT: nat := 400

  /** `Joi.string().min(20).max(60).required()`. */
  predicate NameOk(f: Field) {
    f.Text? && NAME_MIN <= |f.text| <= NAME_MAX
  }

  /** `Joi.string().email().required()`. */
  predicate EmailOk(f: Field, isEmail: string -> bool) {
    f.Text? && f.text != "" && isEmail(f.text)
  }

  /** `Joi.string().max(400).allow("", null)`: optional, null or empty allowed. */
  predicate AddressOk(f: Field) {
    f.Missing? || f.Null? || |f.text| <= ADDRESS_LIMIT
  }

  /** `Joi.string().pattern(passwordPattern).required()`. */
  predicate SignupPasswordOk(f: Field) {
    f.Text? && f.text != "" && SignupPattern(f.text)
  }

  /** `Joi.string().required()`. */
  predicate RequiredString(f: Field) {
    f.Text? && f.text != ""
  }

  /** `validators.signup.validate(body)` reports no error. */
  predicate SignupValid(b: SignupBody, isEmail: string -> bool) {
    NameOk(b.name) && EmailOk(b.email, isEmail) && AddressOk(b.address) && SignupPasswordOk(b.password)
  }

  /** `validators.login.validate(body)` reports no error. */
  predicate LoginValid(b: LoginBody, isEmail: string -> bool) {
    EmailOk(b.email, isEmail) && RequiredString(b.password)
  }

  /**
   What signup validation admits, spelled out: a name of 20 to 60 characters,
   a valid email, an address absent, null or at most 400 characters, and a
   password with 8 to 16 characters, no line terminator, an upper-case letter
   and a punctuation symbol.
   */
  lemma SignupValidIff(b: SignupBody, isEmail: string -> bool)
    ensures SignupValid(b, isEmail) <==>
      && b.name.Text? && 20 <= |b.name.text| <= 60
      && b.email.Text? && b.email.text != "" && isEmail(b.email.text)
      && (b.address.Text? ==> |b.address.text| <= 400)
      && b.password.Text?
      && 8 <= |b.password.text| <= 16
      && (forall i :: 0 <= i < |b.password.text| ==> !LineTerminator(b.password.text[i]))
      && (exists i :: 0 <= i < |b.password.text| && Upper(b.password.text[i]))
      && (exists i :: 0 <= i < |b.password.text| && SignupSymbol(b.password.text[i]))
  {
    if b.password.Text? {
      SignupPatternIff(b.password.text);
    }
  }

  /**
   Login validation never turns away credentials a user can hold: the
   email and password of a body signup accepted pass it, and so does any
   password the update-password rule accepts with a valid email.
   */
  lemma HeldCredentialsPassLogin(b: SignupBody, newPassword: string, isEmail: string -> bool)
    ensures SignupValid(b, isEmail) ==> LoginValid(LoginBody(b.email, b.password), isEmail)
    ensures EmailOk(b.email, isEmail) && UpdatePattern(newPassword) ==>
      LoginValid(LoginBody(b.email, Text(newPassword)), isEmail)
  {
    if UpdatePattern(newPassword) {
      UpdatePatternIff(newPassword);
    }
  }

  /** Login does not re-check strength: a one-character password passes login validation but not signup's. */
  lemma LoginSkipsStrength(email: string, isEmail: string -> bool)
    requires email != "" && isEmail(email)
    ensures LoginValid(LoginBody(Text(email), Text("a")), isEmail)
    ensures !SignupPasswordOk(Text("a"))
  {
    SignupPatternIff("a");
  }
}
